=== FILE: README.md ===
# SimpleLang compiler, modelled in Dafny

SimpleLang is a toy compiler written as one C++ file (`main.cpp`). It reads a program from `test.txt` and runs it through four stages:

- **Lexer** (`tokenize`). Splits the text into tokens: punctuation, `=` and `==`, the keywords `int` and `if`, identifiers (letter runs), numbers (digit runs), and one-character unknown tokens. Whitespace is skipped.
- **Parser** (`consume` and the `parse*` functions). A recursive-descent parser over the tokens, with a global cursor. It accepts:
  - declarations `int x;`
  - assignments `x = t;` and `x = t + t;` / `x = t - t;`
  - `if (t == t) { ... }` statements with nested bodies.
  
  It builds a tree of uniform `ASTNode`s, each a tag string plus children.
- **Printer** (`printAST`). Dumps the tree, one line per node, indented two spaces per level.
- **Code generator** (`generateAssembly`). Walks the tree and writes 8080-style assembly:
  - A declaration enters the name into a symbol table with value 0.
  - An assignment loads its right-hand side with `MVI`/`MOV` and `ADI`/`ADD`, then stores it with `STA`.
  - An `if` compares with `MOV`/`CPI`, jumps with `JNZ LABELn` past its body, and ends with `LABELn:`. Here `n` comes from a static counter.

`main` glues the stages together and reports parse errors on the error stream.

The model is a set of pure functions, one module per stage:

- `Lexer` and `LexerProps`
- `Ast`
- `Parser`, with `ParserProps` and `ParserInverse`
- `Printer`
- `CodeGen` and `CodeGenProps`
- `Pipeline` for `main`

`Results` provides the `Option` and `Result` types used throughout.

How the C++ state and I/O are represented:

- **Parser cursor.** The global cursor is threaded as a position argument. Each parser returns the node it built together with the position after it. A thrown `runtime_error` becomes a `Failure` carrying one of the two messages.
- **Code generator state.** The symbol table and the label counter are threaded as a `GenState`. Emitted code is a sequence of `Instr` values. `CodeGen.Text` renders each instruction to the exact line the C++ writes.
- **Output streams.** Each is a sequence of lines. `Pipeline.Flat` gives the characters those lines put on the stream.

Every operation has a partner, with lemmas connecting the two:

- **Lexer.** The lexer is paired with a renderer. Lexing a rendered token sequence gives it back. The concatenated token texts are exactly the source with its whitespace removed.
- **Parser.** The parser is paired with an unparser, and the two are inverse in both directions. `ParseProgram(ts) == Success(p)` holds exactly when `p` is a well-shaped program whose unparse is `ts`.
- **Printer.** The printer is paired with a reader. Reading a dump back gives the tree.
- **Code generator.** The generator is measured against reference counts of the `if` and declaration nodes. On that basis:
  - The symbol table changes exactly by the declarations visited.
  - The labels used are exactly `0 .. k-1` for a program with `k` `if` statements, each jumped to once and placed once, and every jump goes forward.
  - Every listing line reads back as the instruction that wrote it.

Behaviour of the source that the model keeps as written:

- **Right-hand sides the generator does not handle.** For an identifier alone (`x = y;`) or a subtraction (`x = a - b;`), only `STA x` is written. Nothing is loaded.
- **Joined input lines.** `getline` removes the `'\n'`; a `'\r'` before it stays in the line. `main` then joins the lines with nothing between them. So in a file with `'\n'` line endings, `int` at the end of one line and `x;` at the start of the next lex as the single identifier `intx`. With `'\r\n'` endings the remaining `'\r'` is whitespace and separates them.
- **Missing input file.** The message "Can't open the input file." is written without a newline, so it runs into the first line of the tree dump. The empty source then compiles to an empty program.

## Model

| member | source | states |
|---|---|---|
| Lexer.Tokenize | main.cpp:49-107 | every token the lexer emits is one it can produce: the fixed text of a punctuation, operator or keyword kind, a letter run other than `int`/`if` for an identifier, a digit run for a number, a single other non-space character for an unknown token |
| Lexer.NextToken | main.cpp:56-104 | one step of the loop on non-whitespace input covers a non-empty prefix of the input with a well-formed token whose text is exactly that prefix; `=` followed by `=` becomes `==` and a lone `=` stays an assignment; a letter or digit run is never cut short |
| Lexer.Run | main.cpp:85-87 | the letter/digit run is a prefix all of whose characters qualify and which cannot be extended |
| Lexer.ScanTokens | main.cpp:49-107 | the cursor loop as written (skip whitespace, emit one token and advance past it) produces exactly the token sequence of `Tokenize` |
| Lexer.ScanToken | main.cpp:54-104 | one emitting iteration returns the token of `NextToken` and advances the cursor by exactly its length |
| Lexer.ScanRun | main.cpp:84-100 | the inner `while` loop collects exactly the maximal run starting at the cursor and stops just after it |
| Lexer.RunIsMaximalPrefix | main.cpp:85-87 | a prefix whose characters qualify and that cannot be extended has the length `Run` computes |
| LexerProps.ConcatTokenize | main.cpp:52-104 | the token texts, concatenated, are the source with its whitespace removed, and no token text contains whitespace: only whitespace is dropped and nothing is invented |
| LexerProps.EqualsHandling | main.cpp:58-67 | `==` lexes as one equality token; `=` not followed by `=` lexes as an assignment token |
| LexerProps.RunsAreMaximal | main.cpp:82-102 | a letter run becomes one token holding the whole maximal run, classified as `int`, `if` or identifier exactly by its text; a digit run becomes one number token holding the maximal run |
| LexerProps.UnknownIsOneCharacter | main.cpp:103-104 | any other non-space character is a one-character unknown token, and lexing continues after it |
| LexerProps.NextTokenIsLongestMatch | main.cpp:56-104 | the lexer's step is a longest match (`LongestMatch`: a well-formed token covering a prefix, `==` taken whole, letter and digit runs taken whole), and it is the only one: any token and length meeting those conditions are the lexer's |
| LexerProps.NextTokenOfText | main.cpp:56-104 | a well-formed token's text followed by whitespace or the end lexes, in one step, to that token and covers exactly its text |
| LexerProps.RelexToken | main.cpp:49-107 | the text of every token the lexer can produce lexes back to exactly that token |
| LexerProps.TokenizeRender | main.cpp:49-107 | lexing any lexer-producible token sequence written out with separating spaces gives the sequence back (the lexer inverts the renderer) |
| Parser.Consume | main.cpp:117-122 | succeeds exactly when the current token has the expected kind, returning it and advancing by one; otherwise fails with "Unexpected token" |
| Parser.ParseIdentifier | main.cpp:125-129 | succeeds exactly at an identifier token, building `Identifier` over a leaf with its text, one token on |
| Parser.ParseDeclaration | main.cpp:132-138 | succeeds exactly on `int`, identifier, `;`, building a declaration of that name and moving three tokens on |
| Parser.ParseTerm | main.cpp:151-158 | succeeds exactly at a number or identifier, tagging the node `Number` or `Identifier` by the token's kind with the token text as leaf; otherwise "Expected term" |
| Parser.ParseExpression | main.cpp:161-171 | succeeds exactly when a term is present and, if a `+`/`-` follows it, a second term too; the result is the term parsed at the cursor (one token), or a node tagged with the operator text whose children are the terms parsed before and after the operator (three tokens) |
| Parser.ParseAssignment | main.cpp:141-148 | succeeds exactly on identifier, `=`, an expression, and `;`; the result is an assignment to that identifier whose value is the expression parsed after the `=`, and the parse stops right after the `;` that follows that expression (four or six tokens on) |
| Parser.ParseCondition | main.cpp:174-180 | succeeds exactly on term `==` term, building `==` whose children are the terms parsed before and after the `==`, three tokens on |
| Parser.ParseIfStatement | main.cpp:183-195 | a successful parse is a well-shaped `If` and moves the cursor forward within the tokens |
| Parser.ParseBody | main.cpp:190-193 | a successful body is a sequence of statements that stops at a `}` token |
| Parser.ParseStatement | main.cpp:198-205 | a successful statement is a declaration, assignment or `if`, and the cursor moves forward |
| Parser.ParseStatements | main.cpp:211-212 | a successful statement loop consumes every token |
| Parser.ParseProgram | main.cpp:208-214 | a successful parse is a `Program` of well-shaped statements |
| ParserProps.ParseUnparseTerm | main.cpp:151-158 | parsing the token of a term gives back that term, one token on |
| ParserProps.ParseUnparseExpression | main.cpp:161-171 | parsing an expression's tokens (followed by `;`) gives back that expression and stops after exactly its tokens |
| ParserProps.ParseUnparseCondition | main.cpp:174-180 | parsing a condition's tokens gives back that condition and stops after them |
| ParserProps.ParseUnparseDeclaration | main.cpp:132-138 | parsing a declaration's tokens gives back that declaration and stops after them |
| ParserProps.ParseUnparseAssignment | main.cpp:141-148 | parsing an assignment's tokens gives back that assignment and stops after them |
| ParserProps.ParseUnparseIf | main.cpp:183-195 | parsing an `if` statement's tokens gives back that statement, with its whole nested body, and stops after the closing brace |
| ParserProps.StatementStart | main.cpp:191-205 | every statement's tokens start with `int`, `if` or an identifier, so a body loop never stops inside a statement |
| ParserProps.ParseUnparseStatement | main.cpp:198-205 | parsing any statement's tokens gives back that statement and stops after exactly its tokens |
| ParserProps.ParseUnparseBody | main.cpp:190-193 | parsing a body's tokens followed by `}` gives back the body and stops at the brace |
| ParserProps.ParseUnparseStatements | main.cpp:211-212 | parsing the tokens of a statement sequence up to the end gives back the sequence |
| ParserProps.ParseUnparseProgram | main.cpp:208-214 | every well-shaped program whose unparse is lexer-producible parses back to itself |
| ParserInverse.UnparseParseTerm | main.cpp:151-158 | a parsed term is exactly the token it stepped over |
| ParserInverse.UnparseParseExpression | main.cpp:161-171 | a parsed expression unparses to exactly the tokens the parser stepped over |
| ParserInverse.UnparseParseCondition | main.cpp:174-180 | a parsed condition unparses to exactly the tokens the parser stepped over |
| ParserInverse.UnparseParseDeclaration | main.cpp:132-138 | a parsed declaration unparses to exactly the tokens the parser stepped over |
| ParserInverse.UnparseParseAssignment | main.cpp:141-148 | a parsed assignment unparses to exactly the tokens the parser stepped over |
| ParserInverse.UnparseParseIf | main.cpp:183-195 | a parsed `if` statement unparses to exactly the tokens the parser stepped over |
| ParserInverse.UnparseParseStatement | main.cpp:198-205 | a parsed statement unparses to exactly the tokens the parser stepped over |
| ParserInverse.UnparseParseBody | main.cpp:190-193 | a parsed body unparses to exactly the tokens before the closing brace |
| ParserInverse.UnparseParseStatements | main.cpp:211-212 | a parsed statement sequence unparses to exactly the rest of the tokens |
| ParserInverse.UnparseParseProgram | main.cpp:208-214 | an accepted token sequence is exactly the unparse of the program it yields: nothing is skipped or invented |
| ParserInverse.ParseProgramIff | main.cpp:208-214 | on lexer-producible tokens, the parser returns `p` if and only if `p` is a well-shaped program whose tokens are exactly the input |
| Printer.Indent | main.cpp:219-220 | the indentation for a level is two spaces per level and nothing else |
| Printer.PrintAST | main.cpp:217-221 | a node's dump is never empty and its first line is the node's tag after two spaces per level of depth |
| Printer.PrintLineCount | main.cpp:217-224 | the dump has exactly one line per node |
| Printer.IndentedLine | main.cpp:219-221 | a line written at a level reads back as that depth and that tag |
| Printer.ReadPrintNode | main.cpp:217-224 | reading a subtree's dump back at its level gives the subtree and stops exactly where its lines end |
| Printer.ReadPrintTree | main.cpp:217-224 | reading the whole dump back gives the tree, with no lines left over, for every tree whose tags do not start with a space |
| CodeGen.NatToString | main.cpp:267 | a label number is written as a non-empty string of decimal digits with no leading zero (`CodeGenProps.DecimalOfNatToString` adds that the digits denote the number) |
| CodeGen.Listing | main.cpp:227-279 | the listing has one line per instruction, each the instruction's exact text |
| CodeGen.Generate | main.cpp:262-265 | the walk advances the label counter by exactly one per `If` node it visits |
| CodeGen.GenerateAll | main.cpp:229-233 | the children, walked in order, advance the label counter by their total number of `If` nodes |
| CodeGenProps.DecimalOfNatToString | main.cpp:267 | the decimal text of a label denotes that label |
| CodeGenProps.GenerateSymbols | main.cpp:227-271 | the symbol table after the walk is the table before it with exactly the visited declarations' names set to 0; every other entry is unchanged |
| CodeGenProps.GenerateLabels | main.cpp:262-271 | the labels used are exactly those from the counter's value before the walk up to its value after, each once in a `JNZ` and once as a label line |
| CodeGenProps.GenerateJumpsForward | main.cpp:262-271 | every `JNZ` jumps to a label line written after it |
| CodeGenProps.DeclarationOutput | main.cpp:234-238 | a declaration writes nothing, binds its name to 0 even if already bound, and leaves the counter alone |
| CodeGenProps.AssignNumberOutput | main.cpp:239-246 | `x = v;` with a number writes `MVI A, v` then `STA x` |
| CodeGenProps.AssignSumOutput | main.cpp:247-260 | `x = a + b;` writes `MOV A, a` for an identifier or `MVI A, a` otherwise, then `ADD b` for an identifier or `ADI b` otherwise, then `STA x` |
| CodeGenProps.AssignOtherOutput | main.cpp:239-261 | any other right-hand side (a lone identifier, a subtraction) writes only `STA x` |
| CodeGenProps.IfOutput | main.cpp:262-278 | `if (a == b) { body }` writes `MOV A, a`, `CPI b`, `JNZ LABELn`, the body's lines generated with the counter past `n`, then `LABELn:`, where `n` is the counter's value on entry |
| CodeGenProps.ReadText | main.cpp:245-277 | every line the generator writes reads back as the instruction that wrote it |
| CodeGenProps.ListingInjective | main.cpp:227-279 | two instruction sequences with the same listing are equal: the text loses nothing |
| CodeGenProps.ProgramGenerable | main.cpp:227-279 | on every program the parser can build, every child access the generator makes is in range |
| Pipeline.JoinLinesAppend | main.cpp:290-293 | the source built from a file is the concatenation of the sources built from any split of its lines, and a single line gives itself: lines are appended with nothing added between them |
| Pipeline.StdoutStream | main.cpp:295-298 | on the character stream, standard output is the unterminated message (only when the file cannot be opened) followed by every line written after it, each ended by a newline |
| Pipeline.Compile | main.cpp:282-316 | the error stream is non-empty exactly when the parse of the lexed source fails |
| Pipeline.CompileError | main.cpp:303-313 | the run reports an error exactly when no well-shaped program has the source's tokens; it then writes one line, `Error: Unexpected token` or `Error: Expected term`, to the error stream, and no dump or code |
| Pipeline.ParsedPrintable | main.cpp:305-306 | every tree the parser returns on lexer output can be dumped and read back unambiguously |
| Pipeline.CompileOutput | main.cpp:303-309 | on a successful run the dump reads back as the parsed program, the header follows, each later line reads back as the next instruction, labels `0 .. k-1` are used once each for `k` `if` statements, and every jump goes forward |
| Pipeline.MissingFile | main.cpp:285-299 | with no input file, standard output is the message run into `Program`, the blank line and the header; nothing goes to the error stream |

## Left out

- File I/O: the contents of `test.txt` are a parameter of `Pipeline.Compile` (`None` when the file cannot be opened). The two output streams are modelled as sequences of lines; buffering and interleaving between `cout` and `cerr` are not modelled.
- Exceptions: `runtime_error` becomes a `Failure` value. The two messages are modelled and no other exception can arise on the modelled domain.
- Reading past the end of the token vector (`tokens[pos]` at `pos == tokens.size()`) is undefined behaviour in C++. The model reads it as "no token", which matches no kind. So an unfinished statement fails with "Unexpected token" or "Expected term".
- Reading `source[pos + 1]` after a final `=` reads the string's terminating NUL in C++. The model reads it as "no next character", which gives the same single `=` token.
- `isspace`, `isalpha` and `isdigit` are modelled for the C locale only. The source is a sequence of characters, not bytes. A character outside ASCII is one unknown token. The C++ reads bytes, so a character encoded in k bytes (two for UTF-8 `é`) gives k one-byte `UNKNOWN` tokens, and passing such a byte (a negative `char`) to `isspace`/`isalpha` is undefined behaviour. The effect is bounded: an unknown token makes the parse fail at that same token either way.
- The symbol table is a Dafny `map` rather than an `unordered_map`. Iteration order is never observed, so nothing depends on the difference.
- The static label counter and the global parser cursor are threaded explicitly and start at 0. `main` runs the parser and the generator once per process, so this matches one run. Calling `generateAssembly` twice in one process, which would continue the counter, is not modelled.
- `int` width: the label counter is unbounded. Overflow after 2^31 `if` statements is not modelled. `printAST`'s `level` is a `nat` because it only ever grows from 0.
- Parser.ParseExpression: requires the tokens to be lexer output (`Lexer.ValidTokens`), so that a `+`/`-` token's text is the operator. In the source the parser only ever sees the lexer's output.
- Lexer.Tokenize: its contract states only that every token is well-formed. Which tokens come out is stated by `LexerProps.ConcatTokenize`, `LexerProps.EqualsHandling`, `LexerProps.RunsAreMaximal`, `LexerProps.UnknownIsOneCharacter` and `LexerProps.TokenizeRender`. `Lexer.ScanTokens` ties it to the loop as written.
- Parser.ParseIfStatement: its contract states shape and progress only. Which token sequences it accepts, and what it builds from them, is stated by `ParserProps.ParseUnparseIf` and `ParserInverse.UnparseParseIf`.
- Parser.ParseBody: its contract states shape and where it stops only. The exact tokens are stated by `ParserProps.ParseUnparseBody` and `ParserInverse.UnparseParseBody`.
- Parser.ParseStatement: its contract states shape and progress only. The exact tokens are stated by `ParserProps.ParseUnparseStatement` and `ParserInverse.UnparseParseStatement`.
- Parser.ParseStatements: its contract states shape and that every token is consumed. The exact tokens are stated by `ParserProps.ParseUnparseStatements` and `ParserInverse.UnparseParseStatements`.
- Parser.ParseProgram: its contract states shape only. The full characterisation is `ParserInverse.ParseProgramIff`.
- CodeGen.Generate: its contract states the label counter only. The symbol table, the labels used and the exact lines are stated by the `CodeGenProps` lemmas. It requires `CodeGen.Generable`, which covers exactly the child accesses the C++ makes, and `CodeGenProps.ProgramGenerable` shows every parsed program meets it.
- CodeGen.GenerateAll: its contract states the label counter only. The code and the symbol table are stated by `CodeGenProps.GenerateAllSymbols`, `CodeGenProps.GenerateAllLabels` and `CodeGenProps.GenerateAllJumpsForward`.
- Pipeline.Compile: its contract states only when the error stream is non-empty. What standard output and the error stream hold is stated by `Pipeline.CompileError`, `Pipeline.CompileOutput` and `Pipeline.MissingFile`.
- Printer.PrintAST: its contract states the first line only. `Printer.PrintLineCount` gives one line per node and `Printer.ReadPrintTree` shows the dump determines the tree.
- Printer.PrintForest: it has no contract of its own. Its line count is in `Printer.ForestLineCount` and its read-back in `Printer.ReadPrintForest`.
- CodeGen.Text: it has no contract of its own. `CodeGenProps.ReadText` shows each line reads back as its instruction and `CodeGenProps.ListingInjective` that the listing loses nothing.
- CodeGen.LoadExpression: it has no contract of its own. The lines it contributes to an assignment are stated by `CodeGenProps.AssignNumberOutput`, `CodeGenProps.AssignSumOutput` and `CodeGenProps.AssignOtherOutput`.
- Printer.ReadPrintTree: the dump reads back only for trees whose tags do not start with a space. Such a tag would be indistinguishable from indentation. Parsed programs never contain one (`Pipeline.ParsedPrintable`).

=== FILE: ast.dfy ===
/**
 * The syntax tree: one uniform node shape, a tag string and an ordered list
 * of children (main.cpp `ASTNode`). What a node means is recovered from its
 * tag, so the shapes the parser builds are stated here as predicates.
 */
module Ast {

  datatype Node = Node(value: string, children: seq<Node>)

  /** A node with no children, carrying an identifier name or a numeral as its tag. */
  function Leaf(text: string): Node {
    Node(text, [])
  }

  function IdentifierNode(name: string): Node {
    Node("Identifier", [Leaf(name)])
  }

  function NumberNode(numeral: string): Node {
    Node("Number", [Leaf(numeral)])
  }

  /** `Number` or `Identifier` over a single leaf holding the token text. */
  predicate IsTerm(n: Node) {
    && (n.value == "Number" || n.value == "Identifier")
    && |n.children| == 1
    && n.children[0].children == []
  }

  predicate IsIdentifier(n: Node) {
    IsTerm(n) && n.value == "Identifier"
  }

  /** A `+` or `-` node over exactly two terms. */
  predicate IsBinary(n: Node) {
    && (n.value == "+" || n.value == "-")
    && |n.children| == 2
    && IsTerm(n.children[0]) && IsTerm(n.children[1])
  }

  predicate IsExpression(n: Node) {
    IsTerm(n) || IsBinary(n)
  }

  /** An `==` node over exactly two terms. */
  predicate IsCondition(n: Node) {
    && n.value == "=="
    && |n.children| == 2
    && IsTerm(n.children[0]) && IsTerm(n.children[1])
  }

  /** `Declaration` over one `Identifier`. */
  predicate IsDeclaration(n: Node) {
    n.value == "Declaration" && |n.children| == 1 && IsIdentifier(n.children[0])
  }

  /** `Assignment` over an `Identifier` and then an expression. */
  predicate IsAssignment(n: Node) {
    && n.value == "Assignment"
    && |n.children| == 2
    && IsIdentifier(n.children[0])
    && IsExpression(n.children[1])
  }

  /** `If` over a condition and a `Body` node whose children are statements. */
  predicate IsIf(n: Node)
    decreases n, 0
  {
    && n.value == "If"
    && |n.children| == 2
    && IsCondition(n.children[0])
    && n.children[1].value == "Body"
    && AllStatements(n.children[1].children)
  }

  predicate IsStatement(n: Node)
    decreases n, 1
  {
    IsDeclaration(n) || IsAssignment(n) || IsIf(n)
  }

  /** Every node of `ns` is a statement. */
  predicate AllStatements(ns: seq<Node>)
    decreases ns, 2
  {
    |ns| == 0 || (IsStatement(ns[0]) && AllStatements(ns[1..]))
  }

  /** `Program` over the top-level statements. */
  predicate IsProgram(n: Node) {
    n.value == "Program" && AllStatements(n.children)
  }
}

=== FILE: codegen.dfy ===
/**
 * The code generator (main.cpp `generateAssembly`): a walk over the tree that
 * dispatches on the node tag and emits 8080-style assembly lines. The output
 * stream is modelled as a sequence of instructions, each rendered to exactly
 * the text the C++ writes. The symbol table and the `static` label counter
 * are threaded explicitly as the generator state.
 */
module CodeGen {
  import opened Ast

  /** The instructions the generator writes; operands are node texts, labels are counter values. */
  datatype Instr =
    | Mvi(operand: string)
    | Mov(operand: string)
    | Add(operand: string)
    | Adi(operand: string)
    | Sta(operand: string)
    | Cpi(operand: string)
    | Jnz(target: nat)
    | Label(target: nat)

  function DigitChar(d: nat): char
    requires d < 10
  {
    "0123456789"[d]
  }

  /** Decimal text of a label number, as `operator<<` prints a non-negative `int`. */
  function NatToString(n: nat): (s: string)
    ensures |s| > 0
    ensures forall i :: 0 <= i < |s| ==> '0' <= s[i] <= '9'
    ensures n >= 10 ==> s[0] != '0'
  {
    if n < 10 then [DigitChar(n)] else NatToString(n / 10) + [DigitChar(n % 10)]
  }

  /** The exact line the C++ writes for each instruction. */
  function Text(i: Instr): string {
    match i
    case Mvi(v) => "  MVI A, " + v
    case Mov(v) => "  MOV A, " + v
    case Add(v) => "  ADD " + v
    case Adi(v) => "  ADI " + v
    case Sta(v) => "  STA " + v
    case Cpi(v) => "  CPI " + v
    case Jnz(l) => "  JNZ LABEL" + NatToString(l)
    case Label(l) => "LABEL" + NatToString(l) + ":"
  }

  function Listing(code: seq<Instr>): (lines: seq<string>)
    ensures |lines| == |code|
    ensures forall i :: 0 <= i < |code| ==> lines[i] == Text(code[i])
  {
    if |code| == 0 then [] else [Text(code[0])] + Listing(code[1..])
  }

  /** The symbol table and the next label number. */
  datatype GenState = GenState(symbols: map<string, int>, nextLabel: nat)

  /** What the generator wrote and the state after it. */
  datatype Emitted = Emitted(code: seq<Instr>, state: GenState)

  /**
   * The trees on which every child access the C++ makes is in range. Tags the
   * generator does not know are accepted and produce nothing.
   */
  predicate Generable(n: Node)
    decreases n, 1
  {
    if n.value == "Program" then AllGenerable(n.children)
    else if n.value == "Declaration" then |n.children| >= 1 && |n.children[0].children| >= 1
    else if n.value == "Assignment" then
      && |n.children| >= 2
      && |n.children[0].children| >= 1
      && ExpressionGenerable(n.children[1])
    else if n.value == "If" then
      && |n.children| >= 2
      && Generable(n.children[0])
      && AllGenerable(n.children[1].children)
    else if n.value == "==" then
      |n.children| >= 2 && |n.children[0].children| >= 1 && |n.children[1].children| >= 1
    else true
  }

  predicate AllGenerable(ns: seq<Node>)
    decreases ns, 0
  {
    |ns| == 0 || (Generable(ns[0]) && AllGenerable(ns[1..]))
  }

  /** The child accesses the assignment case makes on its expression. */
  predicate ExpressionGenerable(e: Node) {
    if e.value == "Number" then |e.children| >= 1
    else if e.value == "+" then
      |e.children| >= 2 && |e.children[0].children| >= 1 && |e.children[1].children| >= 1
    else true
  }

  /** The text of a term node: its leaf child. */
  function LeafText(n: Node): string
    requires |n.children| >= 1
  {
    n.children[0].value
  }

  /**
   * The instructions that load an assignment's right-hand side into A. Only
   * a number and `+` are handled; an identifier or a `-` loads nothing.
   */
  function LoadExpression(e: Node): seq<Instr>
    requires ExpressionGenerable(e)
  {
    if e.value == "Number" then [Mvi(LeafText(e))]
    else if e.value == "+" then
      var left, right := e.children[0], e.children[1];
      [if left.value == "Identifier" then Mov(LeafText(left)) else Mvi(LeafText(left))]
      + [if right.value == "Identifier" then Add(LeafText(right)) else Adi(LeafText(right))]
    else []
  }

  /** `generateAssembly(node, symbolTable)` with the label counter made explicit. */
  function Generate(n: Node, st: GenState): (r: Emitted)
    requires Generable(n)
    ensures r.state.nextLabel == st.nextLabel + IfCount(n)
    decreases n, 1
  {
    if n.value == "Program" then GenerateAll(n.children, st)
    else if n.value == "Declaration" then
      Emitted([], st.(symbols := st.symbols[LeafText(n.children[0]) := 0]))
    else if n.value == "Assignment" then
      Emitted(LoadExpression(n.children[1]) + [Sta(LeafText(n.children[0]))], st)
    else if n.value == "If" then
      var l := st.nextLabel;
      var cond := Generate(n.children[0], st.(nextLabel := l + 1));
      var body := GenerateAll(n.children[1].children, cond.state);
      Emitted(cond.code + [Jnz(l)] + body.code + [Label(l)], body.state)
    else if n.value == "==" then
      Emitted([Mov(LeafText(n.children[0])), Cpi(LeafText(n.children[1]))], st)
    else
      Emitted([], st)
  }

  /** The children in order, each starting from the state the previous one left. */
  function GenerateAll(ns: seq<Node>, st: GenState): (r: Emitted)
    requires AllGenerable(ns)
    ensures r.state.nextLabel == st.nextLabel + AllIfCount(ns)
    decreases ns, 0
  {
    if |ns| == 0 then Emitted([], st)
    else
      var first := Generate(ns[0], st);
      var rest := GenerateAll(ns[1..], first.state);
      Emitted(first.code + rest.code, rest.state)
  }

  // ---------------------------------------------------------------------------
  // Reference counts the generator's state is measured against.

  /** The number of `If` nodes the generator visits. */
  function IfCount(n: Node): nat
    requires Generable(n)
    decreases n, 1
  {
    if n.value == "Program" then AllIfCount(n.children)
    else if n.value == "If" then 1 + IfCount(n.children[0]) + AllIfCount(n.children[1].children)
    else 0
  }

  function AllIfCount(ns: seq<Node>): nat
    requires AllGenerable(ns)
    decreases ns, 0
  {
    if |ns| == 0 then 0 else IfCount(ns[0]) + AllIfCount(ns[1..])
  }

  /** The names of the `Declaration` nodes the generator visits. */
  function Declared(n: Node): set<string>
    requires Generable(n)
    decreases n, 1
  {
    if n.value == "Program" then AllDeclared(n.children)
    else if n.value == "Declaration" then {LeafText(n.children[0])}
    else if n.value == "If" then Declared(n.children[0]) + AllDeclared(n.children[1].children)
    else {}
  }

  function AllDeclared(ns: seq<Node>): set<string>
    requires AllGenerable(ns)
    decreases ns, 0
  {
    if |ns| == 0 then {} else Declared(ns[0]) + AllDeclared(ns[1..])
  }
}

=== FILE: codegen_props.dfy ===
/**
 * Properties of the code generator: what it does to the symbol table, how it
 * allocates labels, the exact lines it writes for each statement form, and a
 * reader that recovers the instructions from the listing.
 */
module CodeGenProps {
  import opened Results
  import opened Ast
  import opened CodeGen

  // ---------------------------------------------------------------------------
  // The symbol table.

  /**
   * `after` is `before` with the names of `declared` added or reset to 0,
   * and every other entry as it was.
   */
  predicate DeclaresExactly(before: map<string, int>, after: map<string, int>, declared: set<string>) {
    && after.Keys == before.Keys + declared
    && forall k :: k in after ==> after[k] == if k in declared then 0 else before[k]
  }

  lemma {:induction false} DeclaresCompose(a: map<string, int>, b: map<string, int>, c: map<string, int>, d1: set<string>, d2: set<string>)
    requires DeclaresExactly(a, b, d1) && DeclaresExactly(b, c, d2)
    ensures DeclaresExactly(a, c, d1 + d2)
  {
  }

  /**
   * The table only gains entries: every declaration the walk visits binds its
   * name to 0, and nothing else in the table changes.
   */
  lemma {:induction false} GenerateSymbols(n: Node, st: GenState)
    requires Generable(n)
    ensures DeclaresExactly(st.symbols, Generate(n, st).state.symbols, Declared(n))
    decreases n, 1
  {
    if n.value == "Program" {
      GenerateAllSymbols(n.children, st);
    } else if n.value == "If" {
      var inner := st.(nextLabel := st.nextLabel + 1);
      var cond := Generate(n.children[0], inner);
      var body := GenerateAll(n.children[1].children, cond.state);
      GenerateSymbols(n.children[0], inner);
      GenerateAllSymbols(n.children[1].children, cond.state);
      DeclaresCompose(st.symbols, cond.state.symbols, body.state.symbols,
        Declared(n.children[0]), AllDeclared(n.children[1].children));
    }
  }

  lemma {:induction false} GenerateAllSymbols(ns: seq<Node>, st: GenState)
    requires AllGenerable(ns)
    ensures DeclaresExactly(st.symbols, GenerateAll(ns, st).state.symbols, AllDeclared(ns))
    decreases ns, 0
  {
    if |ns| > 0 {
      var first := Generate(ns[0], st);
      GenerateSymbols(ns[0], st);
      GenerateAllSymbols(ns[1..], first.state);
      DeclaresCompose(st.symbols, first.state.symbols, GenerateAll(ns[1..], first.state).state.symbols,
        Declared(ns[0]), AllDeclared(ns[1..]));
    }
  }

  // ---------------------------------------------------------------------------
  // Labels.

  /** The labels of the `JNZ` instructions, in order. */
  function Jumps(code: seq<Instr>): seq<nat>
  {
    if |code| == 0 then []
    else (if code[0].Jnz? then [code[0].target] else []) + Jumps(code[1..])
  }

  /** The labels placed (`LABELn:` lines), in order. */
  function Targets(code: seq<Instr>): seq<nat>
  {
    if |code| == 0 then []
    else (if code[0].Label? then [code[0].target] else []) + Targets(code[1..])
  }

  lemma {:induction false} JumpsAppend(a: seq<Instr>, b: seq<Instr>)
    ensures Jumps(a + b) == Jumps(a) + Jumps(b)
    decreases |a|
  {
    if |a| == 0 {
      assert a + b == b;
    } else {
      var head := if a[0].Jnz? then [a[0].target] else [];
      assert (a + b)[0] == a[0];
      assert (a + b)[1..] == a[1..] + b;
      JumpsAppend(a[1..], b);
      assert Jumps(a + b) == head + (Jumps(a[1..]) + Jumps(b));
      assert Jumps(a) == head + Jumps(a[1..]);
    }
  }

  lemma {:induction false} TargetsAppend(a: seq<Instr>, b: seq<Instr>)
    ensures Targets(a + b) == Targets(a) + Targets(b)
    decreases |a|
  {
    if |a| == 0 {
      assert a + b == b;
    } else {
      var head := if a[0].Label? then [a[0].target] else [];
      assert (a + b)[0] == a[0];
      assert (a + b)[1..] == a[1..] + b;
      TargetsAppend(a[1..], b);
      assert Targets(a + b) == head + (Targets(a[1..]) + Targets(b));
      assert Targets(a) == head + Targets(a[1..]);
    }
  }

  lemma {:induction false} LabelsAppend(a: seq<Instr>, b: seq<Instr>)
    ensures Jumps(a + b) == Jumps(a) + Jumps(b)
    ensures Targets(a + b) == Targets(a) + Targets(b)
  {
    JumpsAppend(a, b);
    TargetsAppend(a, b);
  }

  predicate Distinct(s: seq<nat>) {
    forall i, j :: 0 <= i < j < |s| ==> s[i] != s[j]
  }

  /** `s` lists each element of `labels` exactly once and nothing else. */
  predicate Covers(s: seq<nat>, labels: set<nat>) {
    && Distinct(s)
    && (forall l :: l in s ==> l in labels)
    && (forall l :: l in labels ==> l in s)
  }

  /** The labels `lo`, `lo + 1`, ..., `hi - 1`. */
  function Range(lo: nat, hi: nat): (r: set<nat>)
    ensures forall l :: l in r <==> lo <= l < hi
    decreases hi - lo
  {
    if lo >= hi then {} else {lo} + Range(lo + 1, hi)
  }

  lemma {:induction false} CoversJoin(a: seq<nat>, b: seq<nat>, x: set<nat>, y: set<nat>)
    requires Covers(a, x) && Covers(b, y) && x !! y
    ensures Covers(a + b, x + y)
  {
    var s := a + b;
    forall i, j | 0 <= i < j < |s|
      ensures s[i] != s[j]
    {
      if j < |a| {
        assert s[i] == a[i] && s[j] == a[j];
      } else if i >= |a| {
        assert s[i] == b[i - |a|] && s[j] == b[j - |a|];
      } else {
        assert s[i] == a[i] && a[i] in x;
        assert s[j] == b[j - |a|] && b[j - |a|] in y;
      }
    }
  }

  /**
   * The labels from `lo` up to `hi` are each jumped to by exactly one `JNZ`
   * and each placed by exactly one label line, and no other label occurs.
   */
  predicate LabelsOnce(code: seq<Instr>, lo: nat, hi: nat) {
    Covers(Jumps(code), Range(lo, hi)) && Covers(Targets(code), Range(lo, hi))
  }

  lemma {:induction false} LabelsOnceJoin(a: seq<Instr>, b: seq<Instr>, lo: nat, mid: nat, hi: nat)
    requires lo <= mid <= hi
    requires LabelsOnce(a, lo, mid) && LabelsOnce(b, mid, hi)
    ensures LabelsOnce(a + b, lo, hi)
  {
    LabelsAppend(a, b);
    CoversJoin(Jumps(a), Jumps(b), Range(lo, mid), Range(mid, hi));
    CoversJoin(Targets(a), Targets(b), Range(lo, mid), Range(mid, hi));
    assert Range(lo, mid) + Range(mid, hi) == Range(lo, hi);
  }

  /** Code without jumps or labels uses no label. */
  lemma {:induction false} NoLabels(code: seq<Instr>, lo: nat)
    requires forall i :: 0 <= i < |code| ==> !code[i].Jnz? && !code[i].Label?
    ensures LabelsOnce(code, lo, lo)
    decreases |code|
  {
    if |code| > 0 {
      NoLabels(code[1..], lo);
    }
    assert Range(lo, lo) == {};
  }

  /** The `If` layout: its own label wraps the condition's and the body's labels. */
  lemma {:induction false} IfLabels(cond: seq<Instr>, body: seq<Instr>, l: nat, mid: nat, hi: nat)
    requires l + 1 <= mid <= hi
    requires LabelsOnce(cond, l + 1, mid) && LabelsOnce(body, mid, hi)
    ensures LabelsOnce(cond + [Jnz(l)] + body + [Label(l)], l, hi)
  {
    var code := cond + [Jnz(l)] + body + [Label(l)];
    LabelsAppend(cond + [Jnz(l)], body);
    LabelsAppend(cond, [Jnz(l)]);
    LabelsAppend(cond + [Jnz(l)] + body, [Label(l)]);
    assert Jumps(code) == Jumps(cond) + [l] + Jumps(body) by {
      assert Jumps([Jnz(l)]) == [l] && Jumps([Label(l)]) == [];
    }
    assert Targets(code) == Targets(cond) + Targets(body) + [l] by {
      assert Targets([Jnz(l)]) == [] && Targets([Label(l)]) == [l];
    }
    WrapCovers(Jumps(cond), [l], Jumps(body), l, mid, hi);
    WrapCovers(Targets(cond), Targets(body), [l], l, mid, hi);
  }

  /** Joins the covers of `l + 1 .. mid`, `mid .. hi` and `{l}`, in either of the two orders used. */
  lemma {:induction false} WrapCovers(a: seq<nat>, b: seq<nat>, c: seq<nat>, l: nat, mid: nat, hi: nat)
    requires l + 1 <= mid <= hi
    requires Covers(a, Range(l + 1, mid))
    requires (Covers(b, {l}) && Covers(c, Range(mid, hi))) || (Covers(b, Range(mid, hi)) && Covers(c, {l}))
    ensures Covers(a + b + c, Range(l, hi))
  {
    if Covers(b, {l}) && Covers(c, Range(mid, hi)) {
      CoversJoin(a, b, Range(l + 1, mid), {l});
      CoversJoin(a + b, c, Range(l + 1, mid) + {l}, Range(mid, hi));
      assert Range(l + 1, mid) + {l} + Range(mid, hi) == Range(l, hi);
    } else {
      CoversJoin(a, b, Range(l + 1, mid), Range(mid, hi));
      CoversJoin(a + b, c, Range(l + 1, mid) + Range(mid, hi), {l});
      assert Range(l + 1, mid) + Range(mid, hi) + {l} == Range(l, hi);
    }
  }

  /**
   * Labels are allocated without reuse: the walk uses exactly the labels from
   * the counter's value before it to the value after it, each once as a jump
   * and once as a placed label.
   */
  lemma {:induction false} GenerateLabels(n: Node, st: GenState)
    requires Generable(n)
    ensures LabelsOnce(Generate(n, st).code, st.nextLabel, Generate(n, st).state.nextLabel)
    decreases n, 2
  {
    if n.value == "Program" {
      GenerateAllLabels(n.children, st);
    } else if n.value == "If" {
      IfGenerateLabels(n, st);
    } else {
      NoLabels(Generate(n, st).code, st.nextLabel);
    }
  }

  /** The `If` case of `GenerateLabels`. */
  lemma {:induction false} IfGenerateLabels(n: Node, st: GenState)
    requires Generable(n) && n.value == "If"
    ensures LabelsOnce(Generate(n, st).code, st.nextLabel, Generate(n, st).state.nextLabel)
    decreases n, 1
  {
    var inner := st.(nextLabel := st.nextLabel + 1);
    var cond := Generate(n.children[0], inner);
    var body := GenerateAll(n.children[1].children, cond.state);
    var r := Generate(n, st);
    assert r.code == cond.code + [Jnz(st.nextLabel)] + body.code + [Label(st.nextLabel)];
    assert r.state.nextLabel == body.state.nextLabel;
    GenerateLabels(n.children[0], inner);
    GenerateAllLabels(n.children[1].children, cond.state);
    IfLabels(cond.code, body.code, st.nextLabel, cond.state.nextLabel, body.state.nextLabel);
  }

  lemma {:induction false} GenerateAllLabels(ns: seq<Node>, st: GenState)
    requires AllGenerable(ns)
    ensures LabelsOnce(GenerateAll(ns, st).code, st.nextLabel, GenerateAll(ns, st).state.nextLabel)
    decreases ns, 0
  {
    if |ns| == 0 {
      NoLabels([], st.nextLabel);
    } else {
      var first := Generate(ns[0], st);
      var rest := GenerateAll(ns[1..], first.state);
      GenerateLabels(ns[0], st);
      GenerateAllLabels(ns[1..], first.state);
      LabelsOnceJoin(first.code, rest.code, st.nextLabel, first.state.nextLabel, rest.state.nextLabel);
    }
  }

  /** Every `JNZ` jumps forward: its label is placed later in the code. */
  predicate JumpsForward(code: seq<Instr>) {
    forall i :: 0 <= i < |code| && code[i].Jnz? ==> Label(code[i].target) in code[i + 1..]
  }

  lemma {:induction false} JumpsForwardJoin(a: seq<Instr>, b: seq<Instr>)
    requires JumpsForward(a) && JumpsForward(b)
    ensures JumpsForward(a + b)
  {
    var s := a + b;
    forall i | 0 <= i < |s| && s[i].Jnz?
      ensures Label(s[i].target) in s[i + 1..]
    {
      if i < |a| {
        assert s[i] == a[i];
        assert s[i + 1..] == a[i + 1..] + b;
      } else {
        assert s[i] == b[i - |a|];
        assert s[i + 1..] == b[i - |a| + 1..];
      }
    }
  }

  lemma {:induction false} IfJumpsForward(cond: seq<Instr>, body: seq<Instr>, l: nat)
    requires JumpsForward(cond) && JumpsForward(body)
    ensures JumpsForward(cond + [Jnz(l)] + body + [Label(l)])
  {
    var tail := [Jnz(l)] + body + [Label(l)];
    forall i | 0 <= i < |tail| && tail[i].Jnz?
      ensures Label(tail[i].target) in tail[i + 1..]
    {
      if i == 0 {
        assert tail[|tail| - 1] == Label(l);
        assert tail[i + 1..][|tail| - 2] == Label(l);
      } else {
        assert tail[i] == body[i - 1];
        assert tail[i + 1..] == body[i..] + [Label(l)];
      }
    }
    JumpsForwardJoin(cond, tail);
    assert cond + [Jnz(l)] + body + [Label(l)] == cond + tail;
  }

  /** Every conditional jump the walk writes goes to a label written after it. */
  lemma {:induction false} GenerateJumpsForward(n: Node, st: GenState)
    requires Generable(n)
    ensures JumpsForward(Generate(n, st).code)
    decreases n, 1
  {
    if n.value == "Program" {
      GenerateAllJumpsForward(n.children, st);
    } else if n.value == "If" {
      var inner := st.(nextLabel := st.nextLabel + 1);
      var cond := Generate(n.children[0], inner);
      GenerateJumpsForward(n.children[0], inner);
      GenerateAllJumpsForward(n.children[1].children, cond.state);
      IfJumpsForward(cond.code, GenerateAll(n.children[1].children, cond.state).code, st.nextLabel);
    }
  }

  lemma {:induction false} GenerateAllJumpsForward(ns: seq<Node>, st: GenState)
    requires AllGenerable(ns)
    ensures JumpsForward(GenerateAll(ns, st).code)
    decreases ns, 0
  {
    if |ns| > 0 {
      var first := Generate(ns[0], st);
      GenerateJumpsForward(ns[0], st);
      GenerateAllJumpsForward(ns[1..], first.state);
      JumpsForwardJoin(first.code, GenerateAll(ns[1..], first.state).code);
    }
  }

  // ---------------------------------------------------------------------------
  // The lines written for each statement form.

  lemma {:induction false} ListingAppend(a: seq<Instr>, b: seq<Instr>)
    ensures Listing(a + b) == Listing(a) + Listing(b)
  {
    assert |Listing(a + b)| == |Listing(a) + Listing(b)|;
    forall i | 0 <= i < |a + b|
      ensures Listing(a + b)[i] == (Listing(a) + Listing(b))[i]
    {
      if i >= |a| {
        assert (a + b)[i] == b[i - |a|];
      }
    }
  }

  /** A declaration writes nothing; its name is bound to 0 (and reset if already there). */
  lemma {:induction false} DeclarationOutput(name: string, st: GenState)
    ensures var r := Generate(Node("Declaration", [IdentifierNode(name)]), st);
      && Listing(r.code) == []
      && name in r.state.symbols && r.state.symbols[name] == 0
      && r.state.nextLabel == st.nextLabel
  {
  }

  /** `x = v;` with a number writes `MVI A, v` then `STA x`. */
  lemma {:induction false} AssignNumberOutput(x: string, v: string, st: GenState)
    ensures var r := Generate(Node("Assignment", [IdentifierNode(x), NumberNode(v)]), st);
      Listing(r.code) == ["  MVI A, " + v, "  STA " + x] && r.state == st
  {
  }

  /**
   * `x = a + b;` loads `a` (MOV for an identifier, MVI otherwise), adds `b`
   * (ADD for an identifier, ADI otherwise), and stores into `x`.
   */
  lemma {:induction false} AssignSumOutput(x: string, a: Node, b: Node, st: GenState)
    requires |a.children| >= 1 && |b.children| >= 1
    ensures var r := Generate(Node("Assignment", [IdentifierNode(x), Node("+", [a, b])]), st);
      && Listing(r.code) == [
           (if a.value == "Identifier" then "  MOV A, " else "  MVI A, ") + a.children[0].value,
           (if b.value == "Identifier" then "  ADD " else "  ADI ") + b.children[0].value,
           "  STA " + x]
      && r.state == st
  {
  }

  /**
   * Any other right-hand side (a lone identifier, or a subtraction) loads
   * nothing: only `STA x` is written.
   */
  lemma {:induction false} AssignOtherOutput(x: string, e: Node, st: GenState)
    requires e.value != "Number" && e.value != "+"
    ensures var r := Generate(Node("Assignment", [IdentifierNode(x), e]), st);
      Listing(r.code) == ["  STA " + x] && r.state == st
  {
  }

  /** One step of the walk on an `If` node: label, condition, jump, body, label line. */
  lemma {:induction false} IfUnfold(n: Node, st: GenState)
    requires n.value == "If" && Generable(n)
    ensures var r := Generate(n, st);
      var cond := Generate(n.children[0], st.(nextLabel := st.nextLabel + 1));
      var body := GenerateAll(n.children[1].children, cond.state);
      r.code == cond.code + [Jnz(st.nextLabel)] + body.code + [Label(st.nextLabel)] && r.state == body.state
  {
  }

  /**
   * `if (a == b) { body }` takes the next label n, writes `MOV A, a`,
   * `CPI b`, `JNZ LABELn`, the body's lines (generated with the counter
   * already advanced), and finally `LABELn:`.
   */
  lemma {:induction false} IfOutput(n: Node, a: Node, b: Node, body: seq<Node>, st: GenState)
    requires n.value == "If" && |n.children| == 2
    requires n.children[0] == Node("==", [a, b]) && n.children[1].children == body
    requires |a.children| >= 1 && |b.children| >= 1 && AllGenerable(body)
    ensures Generable(n)
    ensures var r := Generate(n, st);
      var inner := GenerateAll(body, st.(nextLabel := st.nextLabel + 1));
      && Listing(r.code) ==
           ["  MOV A, " + a.children[0].value, "  CPI " + b.children[0].value,
            "  JNZ LABEL" + NatToString(st.nextLabel)]
           + Listing(inner.code)
           + ["LABEL" + NatToString(st.nextLabel) + ":"]
      && r.state == inner.state
  {
    IfCode(n, a, b, body, st);
    IfListing(a.children[0].value, b.children[0].value, st.nextLabel,
      GenerateAll(body, st.(nextLabel := st.nextLabel + 1)).code);
  }

  /** The instructions of `IfOutput`, before rendering. */
  lemma {:induction false} IfCode(n: Node, a: Node, b: Node, body: seq<Node>, st: GenState)
    requires n.value == "If" && |n.children| == 2
    requires n.children[0] == Node("==", [a, b]) && n.children[1].children == body
    requires |a.children| >= 1 && |b.children| >= 1 && AllGenerable(body)
    ensures Generable(n)
    ensures var r := Generate(n, st);
      var inner := GenerateAll(body, st.(nextLabel := st.nextLabel + 1));
      && r.code == [Mov(a.children[0].value), Cpi(b.children[0].value), Jnz(st.nextLabel)] + inner.code + [Label(st.nextLabel)]
      && r.state == inner.state
  {
    var start := st.(nextLabel := st.nextLabel + 1);
    assert Generable(n.children[0]);
    var cond := Generate(n.children[0], start);
    assert cond.code == [Mov(a.children[0].value), Cpi(b.children[0].value)] && cond.state == start;
    IfUnfold(n, st);
  }

  /** The lines of `IfCode`'s instructions. */
  lemma {:induction false} IfListing(x: string, y: string, l: nat, inner: seq<Instr>)
    ensures Listing([Mov(x), Cpi(y), Jnz(l)] + inner + [Label(l)]) ==
      ["  MOV A, " + x, "  CPI " + y, "  JNZ LABEL" + NatToString(l)] + Listing(inner) + ["LABEL" + NatToString(l) + ":"]
  {
    ListingAppend([Mov(x), Cpi(y), Jnz(l)], inner);
    ListingAppend([Mov(x), Cpi(y), Jnz(l)] + inner, [Label(l)]);
    assert Listing([Mov(x), Cpi(y), Jnz(l)]) == ["  MOV A, " + x, "  CPI " + y, "  JNZ LABEL" + NatToString(l)];
    assert Listing([Label(l)]) == [Text(Label(l))];
  }

  // ---------------------------------------------------------------------------
  // Reading the listing back.

  predicate AllDigits(s: string) {
    forall i :: 0 <= i < |s| ==> '0' <= s[i] <= '9'
  }

  /** The number a string of decimal digits denotes. */
  function DecimalValue(s: string): nat
    requires AllDigits(s)
  {
    if |s| == 0 then 0 else DecimalValue(s[..|s| - 1]) * 10 + (s[|s| - 1] as int - '0' as int)
  }

  lemma {:induction false} DecimalOfNatToString(n: nat)
    ensures DecimalValue(NatToString(n)) == n
    decreases n
  {
    if n >= 10 {
      var s := NatToString(n);
      assert s[..|s| - 1] == NatToString(n / 10);
      DecimalOfNatToString(n / 10);
    }
  }

  function ParseLabel(s: string): Option<nat> {
    if |s| > 0 && AllDigits(s) then Some(DecimalValue(s)) else None
  }

  predicate HasPrefix(prefix: string, s: string) {
    |prefix| <= |s| && s[..|prefix|] == prefix
  }

  /**
   * Recognises one line of the listing: an indented three-letter mnemonic and
   * its operand, or a label line.
   */
  function ReadInstr(line: string): Option<Instr> {
    if |line| >= 6 && line[..2] == "  " && line[5] == ' ' then
      var mnemonic, operand := line[2..5], line[6..];
      if mnemonic == "MVI" && HasPrefix("A, ", operand) then Some(Mvi(operand[3..]))
      else if mnemonic == "MOV" && HasPrefix("A, ", operand) then Some(Mov(operand[3..]))
      else if mnemonic == "ADD" then Some(Add(operand))
      else if mnemonic == "ADI" then Some(Adi(operand))
      else if mnemonic == "STA" then Some(Sta(operand))
      else if mnemonic == "CPI" then Some(Cpi(operand))
      else if mnemonic == "JNZ" && HasPrefix("LABEL", operand) then
        match ParseLabel(operand[5..])
        case Some(l) => Some(Jnz(l))
        case None => None
      else None
    else if HasPrefix("LABEL", line) && |line| > 5 && line[|line| - 1] == ':' then
      match ParseLabel(line[5..|line| - 1])
      case Some(l) => Some(Label(l))
      case None => None
    else None
  }

  /** The pieces `ReadInstr` looks at in an indented line. */
  lemma {:induction false} IndentedParts(mnemonic: string, operand: string)
    requires |mnemonic| == 3
    ensures var t := "  " + mnemonic + " " + operand;
      |t| >= 6 && t[..2] == "  " && t[5] == ' ' && t[2..5] == mnemonic && t[6..] == operand
  {
  }

  lemma {:induction false} ReadMvi(v: string)
    ensures ReadInstr(Text(Mvi(v))) == Some(Mvi(v))
  {
    assert Text(Mvi(v)) == "  " + "MVI" + " " + ("A, " + v);
    IndentedParts("MVI", "A, " + v);
    assert ("A, " + v)[..3] == "A, " && ("A, " + v)[3..] == v;
  }

  lemma {:induction false} ReadJnz(l: nat)
    ensures ReadInstr(Text(Jnz(l))) == Some(Jnz(l))
  {
    var operand := "LABEL" + NatToString(l);
    assert Text(Jnz(l)) == "  " + "JNZ" + " " + operand;
    IndentedParts("JNZ", operand);
    assert operand[..5] == "LABEL" && operand[5..] == NatToString(l);
    DecimalOfNatToString(l);
  }

  lemma {:induction false} ReadLabel(l: nat)
    ensures ReadInstr(Text(Label(l))) == Some(Label(l))
  {
    var t := Text(Label(l));
    assert t[0] == 'L' && t[..5] == "LABEL" && t[5..|t| - 1] == NatToString(l);
    DecimalOfNatToString(l);
  }

  lemma {:induction false} ReadMov(v: string)
    ensures ReadInstr(Text(Mov(v))) == Some(Mov(v))
  {
    assert Text(Mov(v)) == "  " + "MOV" + " " + ("A, " + v);
    IndentedParts("MOV", "A, " + v);
    assert ("A, " + v)[..3] == "A, " && ("A, " + v)[3..] == v;
  }
  lemma {:induction false} ReadAdd(v: string)
    ensures ReadInstr(Text(Add(v))) == Some(Add(v))
  {
    assert Text(Add(v)) == "  " + "ADD" + " " + v;
    IndentedParts("ADD", v);
  }
  lemma {:induction false} ReadAdi(v: string)
    ensures ReadInstr(Text(Adi(v))) == Some(Adi(v))
  {
    assert Text(Adi(v)) == "  " + "ADI" + " " + v;
    IndentedParts("ADI", v);
  }
  lemma {:induction false} ReadSta(v: string)
    ensures ReadInstr(Text(Sta(v))) == Some(Sta(v))
  {
    assert Text(Sta(v)) == "  " + "STA" + " " + v;
    IndentedParts("STA", v);
  }
  lemma {:induction false} ReadCpi(v: string)
    ensures ReadInstr(Text(Cpi(v))) == Some(Cpi(v))
  {
    assert Text(Cpi(v)) == "  " + "CPI" + " " + v;
    IndentedParts("CPI", v);
  }
  /** Each line written reads back as the instruction that wrote it. */
  lemma {:induction false} ReadText(i: Instr)
    ensures ReadInstr(Text(i)) == Some(i)
  {
    match i
    case Mvi(v) => ReadMvi(v);
    case Mov(v) => ReadMov(v);
    case Add(v) => ReadAdd(v);
    case Adi(v) => ReadAdi(v);
    case Sta(v) => ReadSta(v);
    case Cpi(v) => ReadCpi(v);
    case Jnz(l) => ReadJnz(l);
    case Label(l) => ReadLabel(l);
  }

  /** Different code gives different listings: the listing determines the instructions. */
  lemma {:induction false} ListingInjective(a: seq<Instr>, b: seq<Instr>)
    requires Listing(a) == Listing(b)
    ensures a == b
  {
    forall i | 0 <= i < |a|
      ensures a[i] == b[i]
    {
      ReadText(a[i]);
      ReadText(b[i]);
    }
  }

  // ---------------------------------------------------------------------------
  // Parsed programs.

  lemma {:induction false} StatementGenerable(n: Node)
    requires IsStatement(n)
    ensures Generable(n)
    decreases n, 1
  {
    if IsIf(n) {
      AllStatementsGenerable(n.children[1].children);
    }
  }

  lemma {:induction false} AllStatementsGenerable(ns: seq<Node>)
    requires AllStatements(ns)
    ensures AllGenerable(ns)
    decreases ns, 0
  {
    if |ns| > 0 {
      StatementGenerable(ns[0]);
      AllStatementsGenerable(ns[1..]);
    }
  }

  /** Every child access the generator makes on a parsed program is in range. */
  lemma {:induction false} ProgramGenerable(p: Node)
    requires IsProgram(p)
    ensures Generable(p)
  {
    AllStatementsGenerable(p.children);
  }
}

=== FILE: lexer.dfy ===
/** The lexer: turns source text into a sequence of tokens (main.cpp `tokenize`). */
module Lexer {

  /** The token kinds of the `TokenType` enumeration. */
  datatype TokenType =
    | AssignOp | PlusOp | MinusOp | Semicolon | LBrace | RBrace | LParen | RParen
    | EqOp | Unknown | IntKeyword | IfKeyword | Identifier | Number

  datatype Token = Token(kind: TokenType, value: string)

  /** `isspace` in the C locale: space, \t, \n, \v, \f, \r. */
  predicate IsSpace(c: char) {
    c == ' ' || c == '\t' || c == '\n' || c == '\r' || c as int == 0x0B || c as int == 0x0C
  }

  /** `isalpha` in the C locale. */
  predicate IsAlpha(c: char) {
    ('a' <= c <= 'z') || ('A' <= c <= 'Z')
  }

  /** `isdigit`. */
  predicate IsDigit(c: char) {
    '0' <= c <= '9'
  }

  /** The characters that always make a one-character token of their own. */
  const SingleSymbols: string := "+-;{}()"

  /** The characters that have a dedicated one- or two-character token. */
  const Punctuation: string := "=" + SingleSymbols

  /** Length of the longest prefix of `s` whose characters all satisfy `p`. */
  function Run(s: string, p: char -> bool): (n: nat)
    ensures n <= |s|
    ensures forall i :: 0 <= i < n ==> p(s[i])
    ensures n == |s| || !p(s[n])
  {
    if |s| == 0 || !p(s[0]) then 0 else 1 + Run(s[1..], p)
  }

  /** The kind a maximal letter run is given: the two keywords, or an identifier. */
  function WordKind(w: string): TokenType {
    if w == "int" then IntKeyword
    else if w == "if" then IfKeyword
    else Identifier
  }

  /** The single-character punctuation tokens other than `=`. */
  function PunctuationKind(c: char): TokenType
    requires c in SingleSymbols
  {
    match c
    case '+' => PlusOp
    case '-' => MinusOp
    case ';' => Semicolon
    case '{' => LBrace
    case '}' => RBrace
    case '(' => LParen
    case ')' => RParen
  }

  /**
   * One step of the lexer on input that does not start with whitespace: the
   * token the C++ loop body emits and how many characters it covers. A missing
   * character after a final `=` reads as "no next character", where the C++
   * reads the string's terminating NUL.
   */
  function NextToken(s: string): (r: (Token, nat))
    requires |s| > 0 && !IsSpace(s[0])
    ensures 0 < r.1 <= |s|
    ensures r.0.value == s[..r.1]
    ensures WellFormed(r.0)
    ensures s[0] == '=' ==> (r.0.kind == EqOp <==> |s| > 1 && s[1] == '=')
    ensures IsAlpha(s[0]) ==> r.1 == |s| || !IsAlpha(s[r.1])
    ensures IsDigit(s[0]) ==> r.1 == |s| || !IsDigit(s[r.1])
  {
    if s[0] == '=' then
      if |s| > 1 && s[1] == '=' then (Token(EqOp, "=="), 2)
      else (Token(AssignOp, "="), 1)
    else if s[0] in SingleSymbols then (Token(PunctuationKind(s[0]), [s[0]]), 1)
    else if IsAlpha(s[0]) then
      var n := Run(s, IsAlpha);
      (Token(WordKind(s[..n]), s[..n]), n)
    else if IsDigit(s[0]) then
      var n := Run(s, IsDigit);
      (Token(Number, s[..n]), n)
    else (Token(Unknown, [s[0]]), 1)
  }

  /** The lexer: whitespace is skipped, everything else is cut into tokens. */
  function Tokenize(s: string): (ts: seq<Token>)
    ensures ValidTokens(ts)
    decreases |s|
  {
    if |s| == 0 then []
    else if IsSpace(s[0]) then Tokenize(s[1..])
    else
      var (t, n) := NextToken(s);
      [t] + Tokenize(s[n..])
  }

  /** Every character of `w` is a letter, and there is at least one. */
  predicate IsWord(w: string) {
    |w| > 0 && forall i :: 0 <= i < |w| ==> IsAlpha(w[i])
  }

  /** Every character of `w` is a digit, and there is at least one. */
  predicate IsNumeral(w: string) {
    |w| > 0 && forall i :: 0 <= i < |w| ==> IsDigit(w[i])
  }

  /** What the lexer can produce for each kind: the text each token may carry. */
  predicate WellFormed(t: Token) {
    match t.kind
    case AssignOp => t.value == "="
    case EqOp => t.value == "=="
    case PlusOp => t.value == "+"
    case MinusOp => t.value == "-"
    case Semicolon => t.value == ";"
    case LBrace => t.value == "{"
    case RBrace => t.value == "}"
    case LParen => t.value == "("
    case RParen => t.value == ")"
    case IntKeyword => t.value == "int"
    case IfKeyword => t.value == "if"
    case Identifier => IsWord(t.value) && t.value != "int" && t.value != "if"
    case Number => IsNumeral(t.value)
    case Unknown =>
      && |t.value| == 1
      && !IsSpace(t.value[0]) && !IsAlpha(t.value[0]) && !IsDigit(t.value[0])
      && t.value[0] !in Punctuation
  }

  /** A token sequence the lexer could have produced, token by token. */
  predicate ValidTokens(ts: seq<Token>) {
    forall i :: 0 <= i < |ts| ==> WellFormed(ts[i])
  }

  /**
   * The lexer loop as the C++ writes it: a cursor over the source, advanced
   * past one token (or one whitespace character) per iteration.
   */
  method ScanTokens(source: string) returns (tokens: seq<Token>)
    ensures tokens == Tokenize(source)
  {
    tokens := [];
    var pos := 0;
    while pos < |source|
      invariant 0 <= pos <= |source|
      invariant tokens + Tokenize(source[pos..]) == Tokenize(source)
    {
      if IsSpace(source[pos]) {
        SkipPreserves(source, pos, tokens);
        pos := pos + 1;
      } else {
        var token, next := ScanToken(source, pos);
        EmitPreserves(source, pos, tokens, token, next);
        tokens := tokens + [token];
        pos := next;
      }
    }
  }

  /** Skipping a whitespace character keeps the loop invariant of `ScanTokens`. */
  lemma {:induction false} SkipPreserves(source: string, pos: nat, tokens: seq<Token>)
    requires pos < |source| && IsSpace(source[pos])
    requires tokens + Tokenize(source[pos..]) == Tokenize(source)
    ensures tokens + Tokenize(source[pos + 1..]) == Tokenize(source)
  {
    TokenizeSkip(source[pos..]);
    assert source[pos..][1..] == source[pos + 1..];
  }

  /** Emitting the next token keeps the loop invariant of `ScanTokens`. */
  lemma {:induction false} EmitPreserves(source: string, pos: nat, tokens: seq<Token>, token: Token, next: nat)
    requires pos < next <= |source| && !IsSpace(source[pos])
    requires (token, next - pos) == NextToken(source[pos..])
    requires tokens + Tokenize(source[pos..]) == Tokenize(source)
    ensures (tokens + [token]) + Tokenize(source[next..]) == Tokenize(source)
  {
    var rest := source[pos..];
    var after := Tokenize(source[next..]);
    TokenizeStep(rest);
    assert NextToken(rest).0 == token && NextToken(rest).1 == next - pos;
    assert rest[next - pos..] == source[next..];
    assert Tokenize(rest) == [token] + after;
    assert tokens + ([token] + after) == (tokens + [token]) + after;
  }

  lemma {:induction false} TokenizeSkip(s: string)
    requires |s| > 0 && IsSpace(s[0])
    ensures Tokenize(s) == Tokenize(s[1..])
  {
  }

  lemma {:induction false} TokenizeStep(s: string)
    requires |s| > 0 && !IsSpace(s[0])
    ensures Tokenize(s) == [NextToken(s).0] + Tokenize(s[NextToken(s).1..])
  {
  }

  /**
   * One iteration of the lexer loop that emits a token: returns the token and
   * the position just after it.
   */
  method ScanToken(source: string, pos: nat) returns (token: Token, next: nat)
    requires pos < |source| && !IsSpace(source[pos])
    ensures (token, next - pos) == NextToken(source[pos..])
    ensures pos < next <= |source|
  {
    ghost var rest := source[pos..];
    assert rest[0] == source[pos];
    var current := source[pos];
    if current == '=' {
      if pos + 1 < |source| && source[pos + 1] == '=' {
        token, next := Token(EqOp, "=="), pos + 2;
      } else {
        token, next := Token(AssignOp, "="), pos + 1;
      }
    } else if current in SingleSymbols {
      token, next := Token(PunctuationKind(current), [current]), pos + 1;
    } else if IsAlpha(current) {
      var result, p := ScanRun(source, pos, IsAlpha);
      assert rest[..p - pos] == result;
      token, next := Token(WordKind(result), result), p;
    } else if IsDigit(current) {
      var number, p := ScanRun(source, pos, IsDigit);
      assert rest[..p - pos] == number;
      token, next := Token(Number, number), p;
    } else {
      token, next := Token(Unknown, [current]), pos + 1;
    }
  }

  /** The inner `while` of the letter and digit branches: collects a maximal run. */
  method ScanRun(source: string, pos: nat, p: char -> bool) returns (text: string, end: nat)
    requires pos < |source| && p(source[pos])
    ensures pos < end <= |source|
    ensures end - pos == Run(source[pos..], p)
    ensures text == source[pos..end]
  {
    text := "";
    end := pos;
    while end < |source| && p(source[end])
      invariant pos <= end <= |source|
      invariant text == source[pos..end]
      invariant forall i :: pos <= i < end ==> p(source[i])
    {
      text := text + [source[end]];
      end := end + 1;
    }
    RunIsMaximalPrefix(source[pos..], p, end - pos);
  }

  /** `Run` is the only length whose prefix satisfies `p` and cannot be extended. */
  lemma {:induction false} RunIsMaximalPrefix(s: string, p: char -> bool, n: nat)
    requires n <= |s|
    requires forall i :: 0 <= i < n ==> p(s[i])
    requires n == |s| || !p(s[n])
    ensures Run(s, p) == n
    decreases n
  {
    if n > 0 {
      RunIsMaximalPrefix(s[1..], p, n - 1);
    }
  }
}

=== FILE: lexer_props.dfy ===
/** Properties of the lexer: what the token stream says about the source text. */
module LexerProps {
  import opened Lexer

  /** The source with every whitespace character removed. */
  function StripSpace(s: string): (r: string)
    ensures |r| <= |s|
  {
    if |s| == 0 then ""
    else if IsSpace(s[0]) then StripSpace(s[1..])
    else [s[0]] + StripSpace(s[1..])
  }

  /** The texts of the tokens, concatenated. */
  function Concat(ts: seq<Token>): string {
    if |ts| == 0 then "" else ts[0].value + Concat(ts[1..])
  }

  /** Tokens printed back as text, each followed by one space. */
  function Render(ts: seq<Token>): string {
    if |ts| == 0 then "" else ts[0].value + " " + Render(ts[1..])
  }

  lemma {:induction false} StripSpaceAppend(a: string, b: string)
    ensures StripSpace(a + b) == StripSpace(a) + StripSpace(b)
    decreases |a|
  {
    if |a| > 0 {
      assert (a + b)[1..] == a[1..] + b;
      StripSpaceAppend(a[1..], b);
    } else {
      assert a + b == b;
    }
  }

  lemma {:induction false} StripSpaceNoSpace(w: string)
    requires forall i :: 0 <= i < |w| ==> !IsSpace(w[i])
    ensures StripSpace(w) == w
    decreases |w|
  {
    if |w| > 0 {
      StripSpaceNoSpace(w[1..]);
      assert w == [w[0]] + w[1..];
    }
  }

  /** No token text contains a whitespace character. */
  lemma {:induction false} WellFormedHasNoSpace(t: Token)
    requires WellFormed(t)
    ensures forall i :: 0 <= i < |t.value| ==> !IsSpace(t.value[i])
  {
  }

  /**
   * Round trip from the source: concatenating the token texts gives back the
   * input with its whitespace removed, and no token text holds whitespace.
   */
  lemma {:induction false} ConcatTokenize(s: string)
    ensures Concat(Tokenize(s)) == StripSpace(s)
    ensures forall i, j :: 0 <= i < |Tokenize(s)| && 0 <= j < |Tokenize(s)[i].value| ==> !IsSpace(Tokenize(s)[i].value[j])
    decreases |s|
  {
    var ts := Tokenize(s);
    forall i, j | 0 <= i < |ts| && 0 <= j < |ts[i].value|
      ensures !IsSpace(ts[i].value[j])
    {
      WellFormedHasNoSpace(ts[i]);
    }
    if |s| == 0 {
    } else if IsSpace(s[0]) {
      ConcatTokenize(s[1..]);
    } else {
      var (t, n) := NextToken(s);
      ConcatTokenize(s[n..]);
      assert ts == [t] + Tokenize(s[n..]);
      ConcatStep(s, t, n, Tokenize(s[n..]));
    }
  }

  /** One token step of `ConcatTokenize`: a well-formed token read off the front keeps the round trip. */
  lemma {:induction false} ConcatStep(s: string, t: Token, n: nat, rest: seq<Token>)
    requires 0 < n <= |s| && t.value == s[..n] && WellFormed(t)
    requires Concat(rest) == StripSpace(s[n..])
    ensures Concat([t] + rest) == StripSpace(s)
  {
    assert ([t] + rest)[1..] == rest;
    WellFormedHasNoSpace(t);
    StripSpaceNoSpace(s[..n]);
    StripSpaceAppend(s[..n], s[n..]);
    assert s[..n] + s[n..] == s;
  }

  /**
   * The `=` rule: `==` is one equality token covering both characters, and a
   * lone `=` is an assignment token.
   */
  lemma {:induction false} EqualsHandling(rest: string)
    ensures Tokenize("==" + rest) == [Token(EqOp, "==")] + Tokenize(rest)
    ensures rest == [] || rest[0] != '=' ==> Tokenize("=" + rest) == [Token(AssignOp, "=")] + Tokenize(rest)
  {
    assert ("==" + rest)[2..] == rest;
    assert ("=" + rest)[1..] == rest;
  }

  /**
   * Letter and digit runs: input starting with a letter (digit) yields first a
   * token holding the longest run of letters (digits), which is never empty;
   * a letter run is `int` or `if` as keyword and an identifier otherwise.
   */
  lemma {:induction false} RunsAreMaximal(s: string)
    requires |s| > 0 && (IsAlpha(s[0]) || IsDigit(s[0]))
    ensures var t := Tokenize(s)[0];
      && |Tokenize(s)| > 0
      && 0 < |t.value| <= |s| && t.value == s[..|t.value|]
      && Tokenize(s)[1..] == Tokenize(s[|t.value|..])
      && (IsAlpha(s[0]) ==>
            && IsWord(t.value)
            && (|t.value| == |s| || !IsAlpha(s[|t.value|]))
            && (t.kind == IntKeyword <==> t.value == "int")
            && (t.kind == IfKeyword <==> t.value == "if")
            && (t.kind == Identifier <==> t.value != "int" && t.value != "if"))
      && (IsDigit(s[0]) ==>
            && t.kind == Number && IsNumeral(t.value)
            && (|t.value| == |s| || !IsDigit(s[|t.value|])))
  {
    TokenizeStep(s);
  }

  /** A character that is not whitespace, a letter, a digit or punctuation is one unknown token. */
  lemma {:induction false} UnknownIsOneCharacter(s: string)
    requires |s| > 0 && !IsSpace(s[0]) && !IsAlpha(s[0]) && !IsDigit(s[0]) && s[0] !in Punctuation
    ensures Tokenize(s) == [Token(Unknown, [s[0]])] + Tokenize(s[1..])
  {
    TokenizeStep(s);
  }

  /**
   * The text of any well-formed token, followed by whitespace or the end of
   * input, lexes back to exactly that token.
   */
  lemma {:induction false} NextTokenOfText(t: Token, rest: string)
    requires WellFormed(t)
    requires rest == [] || IsSpace(rest[0])
    ensures |t.value + rest| > 0 && !IsSpace((t.value + rest)[0])
    ensures NextToken(t.value + rest) == (t, |t.value|)
  {
    match t.kind
    case Identifier => NextTokenOfWord(t, rest);
    case IntKeyword => NextTokenOfWord(t, rest);
    case IfKeyword => NextTokenOfWord(t, rest);
    case Number => NextTokenOfNumeral(t, rest);
    case _ => NextTokenOfSymbol(t, rest);
  }

  lemma {:induction false} NextTokenOfWord(t: Token, rest: string)
    requires WellFormed(t) && t.kind in {Identifier, IntKeyword, IfKeyword}
    requires rest == [] || IsSpace(rest[0])
    ensures |t.value + rest| > 0 && !IsSpace((t.value + rest)[0])
    ensures NextToken(t.value + rest) == (t, |t.value|)
  {
    var s := t.value + rest;
    assert s[..|t.value|] == t.value;
    assert forall i :: 0 <= i < |t.value| ==> s[i] == t.value[i];
    RunIsMaximalPrefix(s, IsAlpha, |t.value|);
  }

  lemma {:induction false} NextTokenOfNumeral(t: Token, rest: string)
    requires WellFormed(t) && t.kind == Number
    requires rest == [] || IsSpace(rest[0])
    ensures |t.value + rest| > 0 && !IsSpace((t.value + rest)[0])
    ensures NextToken(t.value + rest) == (t, |t.value|)
  {
    var s := t.value + rest;
    assert s[..|t.value|] == t.value;
    assert forall i :: 0 <= i < |t.value| ==> s[i] == t.value[i];
    RunIsMaximalPrefix(s, IsDigit, |t.value|);
  }

  lemma {:induction false} NextTokenOfSymbol(t: Token, rest: string)
    requires WellFormed(t) && t.kind !in {Identifier, IntKeyword, IfKeyword, Number}
    requires rest == [] || IsSpace(rest[0])
    ensures |t.value + rest| > 0 && !IsSpace((t.value + rest)[0])
    ensures NextToken(t.value + rest) == (t, |t.value|)
  {
    if t.kind == AssignOp || t.kind == EqOp {
      NextTokenOfEquals(t, rest);
    } else {
      var s := t.value + rest;
      assert |t.value| == 1 && s[0] == t.value[0] && s[..1] == t.value;
    }
  }

  lemma {:induction false} NextTokenOfEquals(t: Token, rest: string)
    requires WellFormed(t) && (t.kind == AssignOp || t.kind == EqOp)
    requires rest == [] || IsSpace(rest[0])
    ensures |t.value + rest| > 0 && !IsSpace((t.value + rest)[0])
    ensures NextToken(t.value + rest) == (t, |t.value|)
  {
    var s := t.value + rest;
    assert s[..|t.value|] == t.value;
    assert s[0] == '=';
    if t.kind == EqOp {
      assert s[1] == '=';
    } else {
      assert |s| > 1 ==> s[1] == rest[0];
    }
  }

  /**
   * What one lexer step must do, stated without the lexer: cover a non-empty
   * prefix with a well-formed token of exactly that text, take `==` whenever
   * two `=` follow each other, and never stop inside a letter or digit run.
   */
  predicate LongestMatch(s: string, t: Token, n: nat) {
    && 0 < n <= |s| && t.value == s[..n] && WellFormed(t)
    && (s[0] == '=' ==> (t.kind == EqOp <==> |s| > 1 && s[1] == '='))
    && (IsAlpha(s[0]) ==> n == |s| || !IsAlpha(s[n]))
    && (IsDigit(s[0]) ==> n == |s| || !IsDigit(s[n]))
  }

  /** The lexer's step is the only longest match: no other token and length satisfy it. */
  lemma {:induction false} NextTokenIsLongestMatch(s: string, t: Token, n: nat)
    requires |s| > 0 && !IsSpace(s[0])
    ensures LongestMatch(s, NextToken(s).0, NextToken(s).1)
    ensures LongestMatch(s, t, n) ==> (t, n) == NextToken(s)
  {
    if LongestMatch(s, t, n) {
      if IsAlpha(s[0]) {
        RunMatch(s, t, n, IsAlpha);
      } else if IsDigit(s[0]) {
        RunMatch(s, t, n, IsDigit);
      } else {
        SymbolMatch(s, t, n);
      }
    }
  }

  /** A longest match at any other character: `=`/`==`, a one-character symbol, or an unknown character. */
  lemma {:induction false} SymbolMatch(s: string, t: Token, n: nat)
    requires |s| > 0 && !IsSpace(s[0]) && !IsAlpha(s[0]) && !IsDigit(s[0])
    requires LongestMatch(s, t, n)
    ensures (t, n) == NextToken(s)
  {
    assert t.value[0] == s[0];
    if s[0] == '=' {
      assert t.kind == AssignOp || t.kind == EqOp;
    } else if s[0] in SingleSymbols {
      assert n == 1;
    } else {
      assert t.kind == Unknown;
    }
  }

  /** A longest match that starts a letter (digit) run covers exactly that run. */
  lemma {:induction false} RunMatch(s: string, t: Token, n: nat, p: char -> bool)
    requires |s| > 0 && LongestMatch(s, t, n)
    requires p == IsAlpha || p == IsDigit
    requires p(s[0]) && (n == |s| || !p(s[n]))
    ensures n == Run(s, p)
  {
    assert forall i :: 0 <= i < n ==> s[i] == t.value[i];
    if p == IsAlpha {
      assert t.kind in {Identifier, IntKeyword, IfKeyword};
    } else {
      assert t.kind == Number;
    }
    RunIsMaximalPrefix(s, p, n);
  }

  /** Every well-formed token's text lexes to that token alone. */
  lemma {:induction false} RelexToken(t: Token)
    requires WellFormed(t)
    ensures Tokenize(t.value) == [t]
  {
    NextTokenOfText(t, []);
    assert t.value + [] == t.value;
    TokenizeStep(t.value);
    assert t.value[|t.value|..] == [];
  }

  /**
   * The lexer inverts rendering: any sequence of well-formed tokens, written
   * out separated by spaces, lexes back to the same sequence.
   */
  lemma {:induction false} TokenizeRender(ts: seq<Token>)
    requires ValidTokens(ts)
    ensures Tokenize(Render(ts)) == ts
    decreases |ts|
  {
    if |ts| > 0 {
      var t := ts[0];
      var tail := " " + Render(ts[1..]);
      assert Render(ts) == t.value + tail;
      NextTokenOfText(t, tail);
      TokenizeStep(t.value + tail);
      assert (t.value + tail)[|t.value|..] == tail;
      TokenizeSkip(tail);
      assert tail[1..] == Render(ts[1..]);
      TokenizeRender(ts[1..]);
    }
  }
}

=== FILE: parser.dfy ===
/**
 * The recursive-descent parser (main.cpp `consume` and the `parse*`
 * functions). The C++ global cursor `pos` is threaded explicitly: every
 * parser takes the token sequence and a position and returns the node built
 * together with the position after it. A thrown `runtime_error` becomes a
 * `Failure`. Where the C++ reads `tokens[pos]` past the end (undefined
 * behaviour), the model reads "no token", which matches no kind.
 */
module Parser {
  import opened Results
  import opened Lexer
  import opened Ast

  /** The two messages the parser throws: "Unexpected token" and "Expected term". */
  datatype ParseError = UnexpectedToken | ExpectedTerm

  /** What a parser built and the cursor position after it. */
  datatype Parsed<+T> = Parsed(item: T, next: nat)

  type ParseResult<+T> = Result<Parsed<T>, ParseError>

  /** The parser succeeded, built `item` and stopped at `next`. */
  predicate Yields<T(==)>(r: ParseResult<T>, item: T, next: nat) {
    r.Success? && r.value.item == item && r.value.next == next
  }

  /** There is a current token at `pos` and it has kind `k`. */
  predicate At(ts: seq<Token>, pos: nat, k: TokenType) {
    pos < |ts| && ts[pos].kind == k
  }

  predicate TermAt(ts: seq<Token>, pos: nat) {
    At(ts, pos, Number) || At(ts, pos, Identifier)
  }

  predicate AddOpAt(ts: seq<Token>, pos: nat) {
    At(ts, pos, PlusOp) || At(ts, pos, MinusOp)
  }

  /** Takes the current token if it has the expected kind, and advances by one. */
  function Consume(ts: seq<Token>, pos: nat, k: TokenType): (r: ParseResult<Token>)
    ensures r.Success? <==> At(ts, pos, k)
    ensures r.Success? ==> r.value.item == ts[pos] && r.value.next == pos + 1
    ensures r.Failure? ==> r.error == UnexpectedToken
  {
    if At(ts, pos, k) then Success(Parsed(ts[pos], pos + 1)) else Failure(UnexpectedToken)
  }

  function ParseIdentifier(ts: seq<Token>, pos: nat): (r: ParseResult<Node>)
    ensures r.Success? <==> At(ts, pos, Identifier)
    ensures r.Success? ==> r.value.item == IdentifierNode(ts[pos].value) && r.value.next == pos + 1
    ensures r.Failure? ==> r.error == UnexpectedToken
  {
    var id :- Consume(ts, pos, Identifier);
    Success(Parsed(IdentifierNode(id.item.value), id.next))
  }

  /** `int` identifier `;` */
  function ParseDeclaration(ts: seq<Token>, pos: nat): (r: ParseResult<Node>)
    ensures r.Success? <==> At(ts, pos, IntKeyword) && At(ts, pos + 1, Identifier) && At(ts, pos + 2, Semicolon)
    ensures r.Success? ==>
      && IsDeclaration(r.value.item)
      && r.value.item.children[0].children[0].value == ts[pos + 1].value
      && r.value.next == pos + 3
  {
    var kw :- Consume(ts, pos, IntKeyword);
    var id :- Consume(ts, kw.next, Identifier);
    var semi :- Consume(ts, id.next, Semicolon);
    Success(Parsed(Node("Declaration", [IdentifierNode(id.item.value)]), semi.next))
  }

  /** A number or an identifier; anything else is "Expected term". */
  function ParseTerm(ts: seq<Token>, pos: nat): (r: ParseResult<Node>)
    ensures r.Success? <==> TermAt(ts, pos)
    ensures r.Success? ==>
      && IsTerm(r.value.item)
      && r.value.item.value == (if ts[pos].kind == Number then "Number" else "Identifier")
      && r.value.item.children[0].value == ts[pos].value
      && r.value.next == pos + 1
    ensures r.Failure? ==> r.error == ExpectedTerm
  {
    if At(ts, pos, Number) then
      var num := Consume(ts, pos, Number).value;
      Success(Parsed(NumberNode(num.item.value), num.next))
    else if At(ts, pos, Identifier) then
      ParseIdentifier(ts, pos)
    else
      Failure(ExpectedTerm)
  }

  /**
   * A term, optionally followed by `+` or `-` and a second term. The operator
   * node takes the operator token's text as its tag.
   */
  function ParseExpression(ts: seq<Token>, pos: nat): (r: ParseResult<Node>)
    requires ValidTokens(ts)
    ensures r.Success? <==> TermAt(ts, pos) && (AddOpAt(ts, pos + 1) ==> TermAt(ts, pos + 2))
    ensures r.Success? ==> IsExpression(r.value.item)
    ensures r.Success? && !AddOpAt(ts, pos + 1) ==> IsTerm(r.value.item) && r.value.next == pos + 1
    ensures r.Success? && AddOpAt(ts, pos + 1) ==>
      && IsBinary(r.value.item)
      && r.value.item.value == ts[pos + 1].value
      && r.value.next == pos + 3
    ensures r.Success? && !AddOpAt(ts, pos + 1) ==> r.value.item == ParseTerm(ts, pos).value.item
    ensures r.Success? && AddOpAt(ts, pos + 1) ==>
      r.value.item.children == [ParseTerm(ts, pos).value.item, ParseTerm(ts, pos + 2).value.item]
  {
    var left :- ParseTerm(ts, pos);
    if AddOpAt(ts, left.next) then
      var op := Consume(ts, left.next, ts[left.next].kind).value;
      var right :- ParseTerm(ts, op.next);
      Success(Parsed(Node(op.item.value, [left.item, right.item]), right.next))
    else
      Success(left)
  }

  /** identifier `=` expression `;` */
  function ParseAssignment(ts: seq<Token>, pos: nat): (r: ParseResult<Node>)
    requires ValidTokens(ts)
    ensures r.Success? <==>
      && At(ts, pos, Identifier) && At(ts, pos + 1, AssignOp)
      && ParseExpression(ts, pos + 2).Success?
      && At(ts, ParseExpression(ts, pos + 2).value.next, Semicolon)
    ensures r.Success? ==>
      && IsAssignment(r.value.item)
      && r.value.item.children[0].children[0].value == ts[pos].value
      && (r.value.next == pos + 4 || r.value.next == pos + 6)
      && r.value.next <= |ts|
    ensures r.Success? ==> r.value.item.children[1] == ParseExpression(ts, pos + 2).value.item
    ensures r.Success? ==> r.value.next == ParseExpression(ts, pos + 2).value.next + 1
  {
    var id :- Consume(ts, pos, Identifier);
    var assign :- Consume(ts, id.next, AssignOp);
    var expr :- ParseExpression(ts, assign.next);
    var semi :- Consume(ts, expr.next, Semicolon);
    Success(Parsed(Node("Assignment", [IdentifierNode(id.item.value), expr.item]), semi.next))
  }

  /** term `==` term */
  function ParseCondition(ts: seq<Token>, pos: nat): (r: ParseResult<Node>)
    ensures r.Success? <==> TermAt(ts, pos) && At(ts, pos + 1, EqOp) && TermAt(ts, pos + 2)
    ensures r.Success? ==>
      && IsCondition(r.value.item)
      && r.value.item.children[0].children[0].value == ts[pos].value
      && r.value.item.children[1].children[0].value == ts[pos + 2].value
      && r.value.next == pos + 3
    ensures r.Success? ==>
      r.value.item.children == [ParseTerm(ts, pos).value.item, ParseTerm(ts, pos + 2).value.item]
  {
    var left :- ParseTerm(ts, pos);
    var eq :- Consume(ts, left.next, EqOp);
    var right :- ParseTerm(ts, eq.next);
    Success(Parsed(Node("==", [left.item, right.item]), right.next))
  }

  /** `if` `(` condition `)` `{` statement* `}` */
  function ParseIfStatement(ts: seq<Token>, pos: nat): (r: ParseResult<Node>)
    requires ValidTokens(ts) && pos <= |ts|
    ensures r.Success? ==> IsIf(r.value.item) && pos < r.value.next <= |ts|
    decreases |ts| - pos, 0
  {
    var kw :- Consume(ts, pos, IfKeyword);
    var lparen :- Consume(ts, kw.next, LParen);
    var cond :- ParseCondition(ts, lparen.next);
    var rparen :- Consume(ts, cond.next, RParen);
    var lbrace :- Consume(ts, rparen.next, LBrace);
    var body :- ParseBody(ts, lbrace.next);
    var rbrace := Consume(ts, body.next, RBrace).value;
    Success(Parsed(Node("If", [cond.item, Node("Body", body.item)]), rbrace.next))
  }

  /**
   * The statements of an `if` body, up to (not including) the closing brace:
   * the body loop, which runs until a `}` token.
   */
  function ParseBody(ts: seq<Token>, pos: nat): (r: ParseResult<seq<Node>>)
    requires ValidTokens(ts) && pos <= |ts|
    ensures r.Success? ==> AllStatements(r.value.item) && pos <= r.value.next < |ts| && At(ts, r.value.next, RBrace)
    decreases |ts| - pos, 2
  {
    if At(ts, pos, RBrace) then
      Success(Parsed([], pos))
    else
      var stmt :- ParseStatement(ts, pos);
      var rest :- ParseBody(ts, stmt.next);
      Success(Parsed([stmt.item] + rest.item, rest.next))
  }

  /** Dispatch on the current token: `int`, `if`, and everything else as an assignment. */
  function ParseStatement(ts: seq<Token>, pos: nat): (r: ParseResult<Node>)
    requires ValidTokens(ts) && pos <= |ts|
    ensures r.Success? ==> IsStatement(r.value.item) && pos < r.value.next <= |ts|
    decreases |ts| - pos, 1
  {
    if At(ts, pos, IntKeyword) then ParseDeclaration(ts, pos)
    else if At(ts, pos, IfKeyword) then ParseIfStatement(ts, pos)
    else ParseAssignment(ts, pos)
  }

  /** Statements until the cursor reaches the end of the tokens: the loop of `parseProgram`. */
  function ParseStatements(ts: seq<Token>, pos: nat): (r: ParseResult<seq<Node>>)
    requires ValidTokens(ts) && pos <= |ts|
    ensures r.Success? ==> AllStatements(r.value.item) && r.value.next == |ts|
    decreases |ts| - pos
  {
    if pos == |ts| then
      Success(Parsed([], pos))
    else
      var stmt :- ParseStatement(ts, pos);
      var rest :- ParseStatements(ts, stmt.next);
      Success(Parsed([stmt.item] + rest.item, rest.next))
  }

  /** The whole token sequence as one `Program` node; any failure aborts the parse. */
  function ParseProgram(ts: seq<Token>): (r: Result<Node, ParseError>)
    requires ValidTokens(ts)
    ensures r.Success? ==> IsProgram(r.value)
  {
    var stmts :- ParseStatements(ts, 0);
    Success(Node("Program", stmts.item))
  }
}

=== FILE: parser_inverse.dfy ===
/**
 * The other half of the parser/unparser inverse: whatever the parser accepts
 * is exactly the unparse of the tree it returns. The tokens a parser steps
 * over are the tokens of its result, in order, and nothing else; together
 * with `ParserProps.ParseUnparseProgram` this makes `ParseProgram` a
 * bijection between lexer-producible token sequences it accepts and
 * well-shaped programs.
 */
module ParserInverse {
  import opened Results
  import opened Lexer
  import opened Ast
  import opened Parser
  import opened ParserProps

  lemma {:induction false} TokensAtOne(ts: seq<Token>, pos: nat, t: Token)
    requires pos < |ts| && ts[pos] == t
    ensures TokensAt(ts, pos, [t])
  {
    assert [t][1..] == [];
  }

  lemma {:induction false} TokensAtJoin(ts: seq<Token>, pos: nat, a: seq<Token>, b: seq<Token>)
    requires TokensAt(ts, pos, a) && TokensAt(ts, pos + |a|, b)
    ensures TokensAt(ts, pos, a + b)
    decreases |a|
  {
    if |a| == 0 {
      assert a + b == b;
    } else {
      TokensAtJoin(ts, pos + 1, a[1..], b);
      assert (a + b)[1..] == a[1..] + b;
    }
  }

  /** A lexer token of a fixed-text kind is determined by its kind. */
  lemma {:induction false} FixedText(t: Token)
    requires WellFormed(t)
    ensures t.kind == AssignOp ==> t == Token(AssignOp, "=")
    ensures t.kind == EqOp ==> t == Token(EqOp, "==")
    ensures t.kind == PlusOp ==> t == Token(PlusOp, "+")
    ensures t.kind == MinusOp ==> t == Token(MinusOp, "-")
    ensures t.kind == Semicolon ==> t == Token(Semicolon, ";")
    ensures t.kind == LBrace ==> t == Token(LBrace, "{")
    ensures t.kind == RBrace ==> t == Token(RBrace, "}")
    ensures t.kind == LParen ==> t == Token(LParen, "(")
    ensures t.kind == RParen ==> t == Token(RParen, ")")
    ensures t.kind == IntKeyword ==> t == Token(IntKeyword, "int")
    ensures t.kind == IfKeyword ==> t == Token(IfKeyword, "if")
  {
  }

  /** The token at `pos` has kind `k` and the lexer's text for it. */
  lemma {:induction false} FixedAt(ts: seq<Token>, pos: nat, k: TokenType, text: string)
    requires ValidTokens(ts) && At(ts, pos, k)
    requires WellFormed(Token(k, text))
    requires k !in {Identifier, Number, Unknown}
    ensures TokensAt(ts, pos, [Token(k, text)])
  {
    FixedText(ts[pos]);
    TokensAtOne(ts, pos, Token(k, text));
  }

  lemma {:induction false} UnparseParseTerm(ts: seq<Token>, pos: nat)
    requires ParseTerm(ts, pos).Success?
    ensures var r := ParseTerm(ts, pos).value;
      IsTerm(r.item) && TokensAt(ts, pos, UnparseTerm(r.item)) && r.next == pos + 1
  {
    var r := ParseTerm(ts, pos).value;
    assert UnparseTerm(r.item) == [ts[pos]];
    TokensAtOne(ts, pos, ts[pos]);
  }

  lemma {:induction false} UnparseParseExpression(ts: seq<Token>, pos: nat)
    requires ValidTokens(ts) && ParseExpression(ts, pos).Success?
    ensures var r := ParseExpression(ts, pos).value;
      && IsExpression(r.item)
      && TokensAt(ts, pos, UnparseExpression(r.item))
      && r.next == pos + |UnparseExpression(r.item)|
  {
    var r := ParseExpression(ts, pos).value;
    UnparseParseTerm(ts, pos);
    if AddOpAt(ts, pos + 1) {
      UnparseParseTerm(ts, pos + 2);
      BinaryTokens(ts, pos, ParseTerm(ts, pos).value.item, ParseTerm(ts, pos + 2).value.item, r.item);
    }
  }

  /** The tokens of a binary expression, assembled from where its terms and operator sit. */
  lemma {:induction false} BinaryTokens(ts: seq<Token>, pos: nat, left: Node, right: Node, n: Node)
    requires ValidTokens(ts) && AddOpAt(ts, pos + 1)
    requires IsTerm(left) && TokensAt(ts, pos, UnparseTerm(left))
    requires IsTerm(right) && TokensAt(ts, pos + 2, UnparseTerm(right))
    requires n.value == ts[pos + 1].value && n.children == [left, right]
    ensures IsExpression(n)
    ensures TokensAt(ts, pos, UnparseExpression(n))
    ensures |UnparseExpression(n)| == 3
  {
    FixedText(ts[pos + 1]);
    TokensAtOne(ts, pos + 1, OperatorToken(n.value));
    TokensAtJoin(ts, pos, UnparseTerm(left), [OperatorToken(n.value)]);
    TokensAtJoin(ts, pos, UnparseTerm(left) + [OperatorToken(n.value)], UnparseTerm(right));
  }

  lemma {:induction false} UnparseParseCondition(ts: seq<Token>, pos: nat)
    requires ValidTokens(ts) && ParseCondition(ts, pos).Success?
    ensures var r := ParseCondition(ts, pos).value;
      && IsCondition(r.item)
      && TokensAt(ts, pos, UnparseCondition(r.item))
      && r.next == pos + |UnparseCondition(r.item)|
  {
    var r := ParseCondition(ts, pos).value;
    var left, right := ParseTerm(ts, pos).value.item, ParseTerm(ts, pos + 2).value.item;
    UnparseParseTerm(ts, pos);
    UnparseParseTerm(ts, pos + 2);
    assert r.item == Node("==", [left, right]);
    FixedAt(ts, pos + 1, EqOp, "==");
    TokensAtJoin(ts, pos, UnparseTerm(left), [Token(EqOp, "==")]);
    TokensAtJoin(ts, pos, UnparseTerm(left) + [Token(EqOp, "==")], UnparseTerm(right));
  }

  lemma {:induction false} UnparseParseDeclaration(ts: seq<Token>, pos: nat)
    requires ValidTokens(ts) && ParseDeclaration(ts, pos).Success?
    ensures var r := ParseDeclaration(ts, pos).value;
      && IsStatement(r.item)
      && TokensAt(ts, pos, UnparseStatement(r.item))
      && r.next == pos + |UnparseStatement(r.item)|
  {
    var r := ParseDeclaration(ts, pos).value;
    var name := ts[pos + 1].value;
    FixedAt(ts, pos, IntKeyword, "int");
    TokensAtOne(ts, pos + 1, Token(Identifier, name));
    FixedAt(ts, pos + 2, Semicolon, ";");
    TokensAtJoin(ts, pos, [Token(IntKeyword, "int")], [Token(Identifier, name)]);
    TokensAtJoin(ts, pos, [Token(IntKeyword, "int"), Token(Identifier, name)], [Token(Semicolon, ";")]);
    assert UnparseStatement(r.item) == [Token(IntKeyword, "int"), Token(Identifier, name), Token(Semicolon, ";")];
  }

  /** What a successful `ParseAssignment` is made of. */
  lemma {:induction false} AssignmentParsed(ts: seq<Token>, pos: nat)
    requires ValidTokens(ts) && ParseAssignment(ts, pos).Success?
    ensures At(ts, pos, Identifier) && At(ts, pos + 1, AssignOp)
    ensures ParseExpression(ts, pos + 2).Success?
    ensures var r, e := ParseAssignment(ts, pos).value, ParseExpression(ts, pos + 2).value;
      && At(ts, e.next, Semicolon)
      && r.item == Node("Assignment", [IdentifierNode(ts[pos].value), e.item])
      && r.next == e.next + 1
  {
  }

  /** The tokens of an assignment, assembled from where its parts sit. */
  lemma {:induction false} AssignmentTokens(ts: seq<Token>, pos: nat, e: Parsed<Node>, r: Parsed<Node>)
    requires ValidTokens(ts) && At(ts, pos, Identifier) && At(ts, pos + 1, AssignOp)
    requires IsExpression(e.item) && TokensAt(ts, pos + 2, UnparseExpression(e.item))
    requires e.next == pos + 2 + |UnparseExpression(e.item)| && At(ts, e.next, Semicolon)
    requires r.item == Node("Assignment", [IdentifierNode(ts[pos].value), e.item]) && r.next == e.next + 1
    ensures IsStatement(r.item)
    ensures TokensAt(ts, pos, UnparseStatement(r.item))
    ensures r.next == pos + |UnparseStatement(r.item)|
  {
    var name := ts[pos].value;
    var head := [Token(Identifier, name), Token(AssignOp, "=")];
    assert IsAssignment(r.item);
    TokensAtOne(ts, pos, Token(Identifier, name));
    FixedAt(ts, pos + 1, AssignOp, "=");
    TokensAtJoin(ts, pos, [Token(Identifier, name)], [Token(AssignOp, "=")]);
    TokensAtJoin(ts, pos, head, UnparseExpression(e.item));
    FixedAt(ts, e.next, Semicolon, ";");
    TokensAtJoin(ts, pos, head + UnparseExpression(e.item), [Token(Semicolon, ";")]);
  }

  lemma {:induction false} UnparseParseAssignment(ts: seq<Token>, pos: nat)
    requires ValidTokens(ts) && ParseAssignment(ts, pos).Success?
    ensures var r := ParseAssignment(ts, pos).value;
      && IsStatement(r.item)
      && TokensAt(ts, pos, UnparseStatement(r.item))
      && r.next == pos + |UnparseStatement(r.item)|
  {
    AssignmentParsed(ts, pos);
    var e := ParseExpression(ts, pos + 2).value;
    UnparseParseExpression(ts, pos + 2);
    AssignmentTokens(ts, pos, e, ParseAssignment(ts, pos).value);
  }

  /** What a successful `ParseIfStatement` is made of. */
  lemma {:induction false} IfParsed(ts: seq<Token>, pos: nat)
    requires ValidTokens(ts) && pos <= |ts| && ParseIfStatement(ts, pos).Success?
    ensures At(ts, pos, IfKeyword) && At(ts, pos + 1, LParen)
    ensures ParseCondition(ts, pos + 2).Success? && ParseCondition(ts, pos + 2).value.next == pos + 5
    ensures At(ts, pos + 5, RParen) && At(ts, pos + 6, LBrace)
    ensures ParseBody(ts, pos + 7).Success?
    ensures var r, b := ParseIfStatement(ts, pos).value, ParseBody(ts, pos + 7).value;
      && r.item == Node("If", [ParseCondition(ts, pos + 2).value.item, Node("Body", b.item)])
      && r.next == b.next + 1
  {
  }

  /** What a successful `ParseBody` that does not stop at once is made of. */
  lemma {:induction false} BodyParsed(ts: seq<Token>, pos: nat)
    requires ValidTokens(ts) && pos <= |ts| && ParseBody(ts, pos).Success? && !At(ts, pos, RBrace)
    ensures ParseStatement(ts, pos).Success?
    ensures var s := ParseStatement(ts, pos).value;
      && ParseBody(ts, s.next).Success?
      && ParseBody(ts, pos).value.item == [s.item] + ParseBody(ts, s.next).value.item
      && ParseBody(ts, pos).value.next == ParseBody(ts, s.next).value.next
  {
  }

  /** What a successful `ParseStatements` that has not reached the end is made of. */
  lemma {:induction false} StatementsParsed(ts: seq<Token>, pos: nat)
    requires ValidTokens(ts) && pos < |ts| && ParseStatements(ts, pos).Success?
    ensures ParseStatement(ts, pos).Success?
    ensures var s := ParseStatement(ts, pos).value;
      && ParseStatements(ts, s.next).Success?
      && ParseStatements(ts, pos).value.item == [s.item] + ParseStatements(ts, s.next).value.item
      && ParseStatements(ts, pos).value.next == ParseStatements(ts, s.next).value.next
  {
  }

  /** The tokens of a statement followed by the tokens of more statements. */
  lemma {:induction false} StatementsCons(ts: seq<Token>, pos: nat, s: Parsed<Node>, rest: Parsed<seq<Node>>, all: Parsed<seq<Node>>)
    requires all.item == [s.item] + rest.item && all.next == rest.next
    requires IsStatement(s.item) && TokensAt(ts, pos, UnparseStatement(s.item))
    requires s.next == pos + |UnparseStatement(s.item)|
    requires AllStatements(rest.item) && TokensAt(ts, s.next, UnparseStatements(rest.item))
    requires rest.next == s.next + |UnparseStatements(rest.item)|
    ensures AllStatements(all.item)
    ensures TokensAt(ts, pos, UnparseStatements(all.item))
    ensures all.next == pos + |UnparseStatements(all.item)|
  {
    assert all.item[0] == s.item;
    assert all.item[1..] == rest.item;
    TokensAtJoin(ts, pos, UnparseStatement(s.item), UnparseStatements(rest.item));
  }

  /** The tokens of an `if` statement, assembled from where its parts sit. */
  lemma {:induction false} IfTokens(ts: seq<Token>, pos: nat, cond: Node, body: seq<Node>, close: nat)
    requires ValidTokens(ts) && IsCondition(cond) && AllStatements(body)
    requires At(ts, pos, IfKeyword) && At(ts, pos + 1, LParen)
    requires TokensAt(ts, pos + 2, UnparseCondition(cond))
    requires At(ts, pos + 5, RParen) && At(ts, pos + 6, LBrace)
    requires TokensAt(ts, pos + 7, UnparseStatements(body))
    requires close == pos + 7 + |UnparseStatements(body)| && At(ts, close, RBrace)
    ensures var n := Node("If", [cond, Node("Body", body)]);
      && IsStatement(n)
      && TokensAt(ts, pos, UnparseStatement(n))
      && |UnparseStatement(n)| == 8 + |UnparseStatements(body)|
  {
    var n := Node("If", [cond, Node("Body", body)]);
    assert IsIf(n);
    var opening := IfHeadTokens(ts, pos, cond);
    var b := UnparseStatements(body);
    TokensAtJoin(ts, pos, opening, b);
    FixedAt(ts, close, RBrace, "}");
    TokensAtJoin(ts, pos, opening + b, [Token(RBrace, "}")]);
    assert UnparseStatement(n) == opening + b + [Token(RBrace, "}")];
  }

  /** The tokens `if ( cond ) {` of an `if` statement, assembled from where they sit. */
  lemma {:induction false} IfHeadTokens(ts: seq<Token>, pos: nat, cond: Node) returns (opening: seq<Token>)
    requires ValidTokens(ts) && IsCondition(cond)
    requires At(ts, pos, IfKeyword) && At(ts, pos + 1, LParen)
    requires TokensAt(ts, pos + 2, UnparseCondition(cond))
    requires At(ts, pos + 5, RParen) && At(ts, pos + 6, LBrace)
    ensures opening == [Token(IfKeyword, "if"), Token(LParen, "(")] + UnparseCondition(cond)
      + [Token(RParen, ")"), Token(LBrace, "{")]
    ensures |opening| == 7 && TokensAt(ts, pos, opening)
  {
    var head := [Token(IfKeyword, "if"), Token(LParen, "(")];
    var mid := [Token(RParen, ")"), Token(LBrace, "{")];
    FixedAt(ts, pos, IfKeyword, "if");
    FixedAt(ts, pos + 1, LParen, "(");
    TokensAtJoin(ts, pos, [Token(IfKeyword, "if")], [Token(LParen, "(")]);
    TokensAtJoin(ts, pos, head, UnparseCondition(cond));
    FixedAt(ts, pos + 5, RParen, ")");
    FixedAt(ts, pos + 6, LBrace, "{");
    TokensAtJoin(ts, pos + 5, [Token(RParen, ")")], [Token(LBrace, "{")]);
    TokensAtJoin(ts, pos, head + UnparseCondition(cond), mid);
    opening := head + UnparseCondition(cond) + mid;
  }

  lemma {:induction false} UnparseParseIf(ts: seq<Token>, pos: nat)
    requires ValidTokens(ts) && pos <= |ts| && ParseIfStatement(ts, pos).Success?
    ensures var r := ParseIfStatement(ts, pos).value;
      && IsStatement(r.item)
      && TokensAt(ts, pos, UnparseStatement(r.item))
      && r.next == pos + |UnparseStatement(r.item)|
    decreases |ts| - pos, 0
  {
    IfParsed(ts, pos);
    var c, b := ParseCondition(ts, pos + 2).value, ParseBody(ts, pos + 7).value;
    UnparseParseCondition(ts, pos + 2);
    UnparseParseBody(ts, pos + 7);
    assert At(ts, b.next, RBrace);
    IfTokens(ts, pos, c.item, b.item, b.next);
  }

  lemma {:induction false} UnparseParseStatement(ts: seq<Token>, pos: nat)
    requires ValidTokens(ts) && pos <= |ts| && ParseStatement(ts, pos).Success?
    ensures var r := ParseStatement(ts, pos).value;
      && IsStatement(r.item)
      && TokensAt(ts, pos, UnparseStatement(r.item))
      && r.next == pos + |UnparseStatement(r.item)|
    decreases |ts| - pos, 1
  {
    if At(ts, pos, IntKeyword) {
      UnparseParseDeclaration(ts, pos);
    } else if At(ts, pos, IfKeyword) {
      UnparseParseIf(ts, pos);
    } else {
      UnparseParseAssignment(ts, pos);
    }
  }

  lemma {:induction false} UnparseParseBody(ts: seq<Token>, pos: nat)
    requires ValidTokens(ts) && pos <= |ts| && ParseBody(ts, pos).Success?
    ensures var r := ParseBody(ts, pos).value;
      && TokensAt(ts, pos, UnparseStatements(r.item))
      && r.next == pos + |UnparseStatements(r.item)|
    decreases |ts| - pos, 3
  {
    if !At(ts, pos, RBrace) {
      UnparseParseBodyStep(ts, pos);
    }
  }

  /** A body that does not stop at once: its first statement, then the rest. */
  lemma {:induction false} UnparseParseBodyStep(ts: seq<Token>, pos: nat)
    requires ValidTokens(ts) && pos <= |ts| && ParseBody(ts, pos).Success? && !At(ts, pos, RBrace)
    ensures var r := ParseBody(ts, pos).value;
      && TokensAt(ts, pos, UnparseStatements(r.item))
      && r.next == pos + |UnparseStatements(r.item)|
    decreases |ts| - pos, 2
  {
    BodyParsed(ts, pos);
    var s := ParseStatement(ts, pos).value;
    UnparseParseStatement(ts, pos);
    UnparseParseBody(ts, s.next);
    var rest := ParseBody(ts, s.next).value;
    StatementsCons(ts, pos, s, rest, ParseBody(ts, pos).value);
  }

  lemma {:induction false} UnparseParseStatements(ts: seq<Token>, pos: nat)
    requires ValidTokens(ts) && pos <= |ts| && ParseStatements(ts, pos).Success?
    ensures var r := ParseStatements(ts, pos).value;
      TokensAt(ts, pos, UnparseStatements(r.item)) && |ts| == pos + |UnparseStatements(r.item)|
    decreases |ts| - pos, 1
  {
    if pos < |ts| {
      UnparseParseStatementsStep(ts, pos);
    }
  }

  /** Statements before the end of the tokens: the first one, then the rest. */
  lemma {:induction false} UnparseParseStatementsStep(ts: seq<Token>, pos: nat)
    requires ValidTokens(ts) && pos < |ts| && ParseStatements(ts, pos).Success?
    ensures var r := ParseStatements(ts, pos).value;
      TokensAt(ts, pos, UnparseStatements(r.item)) && |ts| == pos + |UnparseStatements(r.item)|
    decreases |ts| - pos, 0
  {
    StatementsParsed(ts, pos);
    var s := ParseStatement(ts, pos).value;
    UnparseParseStatement(ts, pos);
    UnparseParseStatements(ts, s.next);
    StatementsCons(ts, pos, s, ParseStatements(ts, s.next).value, ParseStatements(ts, pos).value);
  }

  lemma {:induction false} TokensAtAll(ts: seq<Token>, u: seq<Token>)
    requires TokensAt(ts, 0, u) && |u| == |ts|
    ensures u == ts
  {
    forall i | 0 <= i < |u|
      ensures u[i] == ts[i]
    {
      TokenAt(ts, 0, u, i);
    }
  }

  /** Unparsing inverts parsing: an accepted token sequence is the unparse of its program. */
  lemma {:induction false} UnparseParseProgram(ts: seq<Token>)
    requires ValidTokens(ts) && ParseProgram(ts).Success?
    ensures IsProgram(ParseProgram(ts).value) && UnparseProgram(ParseProgram(ts).value) == ts
  {
    UnparseParseStatements(ts, 0);
    TokensAtAll(ts, UnparseProgram(ParseProgram(ts).value));
  }

  /**
   * The parser is exactly the inverse of the unparser on lexer-producible
   * tokens: `ParseProgram` returns `p` precisely when `p` is a well-shaped
   * program whose tokens are `ts`.
   */
  lemma {:induction false} ParseProgramIff(ts: seq<Token>, p: Node)
    requires ValidTokens(ts)
    ensures ParseProgram(ts) == Success(p) <==> IsProgram(p) && UnparseProgram(p) == ts
  {
    if ParseProgram(ts) == Success(p) {
      UnparseParseProgram(ts);
    }
    if IsProgram(p) && UnparseProgram(p) == ts {
      ParseUnparseProgram(p);
    }
  }
}

=== FILE: parser_props.dfy ===
/**
 * The grammar read backwards: `Unparse*` writes a well-shaped tree out as the
 * tokens it was parsed from. The parser and the unparser are inverse to each
 * other: parsing the unparse of any statement gives it back, and whatever the
 * parser accepts is the unparse of the tree it returns (so it consumes every
 * token it was given, and nothing is lost or invented).
 */
module ParserProps {
  import opened Results
  import opened Lexer
  import opened Ast
  import opened Parser

  function UnparseTerm(n: Node): (u: seq<Token>)
    requires IsTerm(n)
  {
    [Token(if n.value == "Number" then Number else Identifier, n.children[0].value)]
  }

  function OperatorToken(op: string): Token
    requires op == "+" || op == "-"
  {
    if op == "+" then Token(PlusOp, "+") else Token(MinusOp, "-")
  }

  function UnparseExpression(n: Node): seq<Token>
    requires IsExpression(n)
  {
    if IsTerm(n) then UnparseTerm(n)
    else UnparseTerm(n.children[0]) + [OperatorToken(n.value)] + UnparseTerm(n.children[1])
  }

  function UnparseCondition(n: Node): seq<Token>
    requires IsCondition(n)
  {
    UnparseTerm(n.children[0]) + [Token(EqOp, "==")] + UnparseTerm(n.children[1])
  }

  function UnparseStatement(n: Node): seq<Token>
    requires IsStatement(n)
    decreases n, 1
  {
    if IsDeclaration(n) then
      [Token(IntKeyword, "int"), Token(Identifier, n.children[0].children[0].value), Token(Semicolon, ";")]
    else if IsAssignment(n) then
      [Token(Identifier, n.children[0].children[0].value), Token(AssignOp, "=")]
      + UnparseExpression(n.children[1]) + [Token(Semicolon, ";")]
    else
      assert IsIf(n);
      [Token(IfKeyword, "if"), Token(LParen, "(")] + UnparseCondition(n.children[0])
      + [Token(RParen, ")"), Token(LBrace, "{")]
      + UnparseStatements(n.children[1].children) + [Token(RBrace, "}")]
  }

  function UnparseStatements(ns: seq<Node>): seq<Token>
    requires AllStatements(ns)
    decreases ns, 2
  {
    if |ns| == 0 then [] else UnparseStatement(ns[0]) + UnparseStatements(ns[1..])
  }

  function UnparseProgram(p: Node): seq<Token>
    requires IsProgram(p)
  {
    UnparseStatements(p.children)
  }

  /** The tokens `u` sit in `ts` starting at `pos`. */
  predicate TokensAt(ts: seq<Token>, pos: nat, u: seq<Token>)
    decreases |u|
  {
    pos + |u| <= |ts| && (|u| == 0 || (ts[pos] == u[0] && TokensAt(ts, pos + 1, u[1..])))
  }

  lemma {:induction false} TokenAt(ts: seq<Token>, pos: nat, u: seq<Token>, i: nat)
    requires TokensAt(ts, pos, u) && i < |u|
    ensures pos + i < |ts| && ts[pos + i] == u[i]
    decreases i
  {
    if i > 0 {
      TokenAt(ts, pos + 1, u[1..], i - 1);
    }
  }

  lemma {:induction false} TokensAtSplit(ts: seq<Token>, pos: nat, a: seq<Token>, b: seq<Token>)
    requires TokensAt(ts, pos, a + b)
    ensures TokensAt(ts, pos, a) && TokensAt(ts, pos + |a|, b)
    decreases |a|
  {
    if |a| > 0 {
      assert (a + b)[0] == a[0];
      assert (a + b)[1..] == a[1..] + b;
      TokensAtSplit(ts, pos + 1, a[1..], b);
    } else {
      assert a + b == b;
    }
  }

  lemma {:induction false} TokensAtSuffix(ts: seq<Token>, pos: nat)
    requires pos <= |ts|
    ensures TokensAt(ts, pos, ts[pos..])
    decreases |ts| - pos
  {
    if pos < |ts| {
      assert ts[pos..][1..] == ts[pos + 1..];
      TokensAtSuffix(ts, pos + 1);
    }
  }

  /** A term is determined by its tag and its leaf's text. */
  lemma {:induction false} TermShape(n: Node)
    requires IsTerm(n)
    ensures n == Node(n.value, [Leaf(n.children[0].value)])
  {
    assert n.children == [Leaf(n.children[0].value)];
  }

  lemma {:induction false} ParseUnparseTerm(ts: seq<Token>, pos: nat, n: Node)
    requires IsTerm(n) && TokensAt(ts, pos, UnparseTerm(n))
    ensures Yields(ParseTerm(ts, pos), n, pos + 1)
  {
    assert ts[pos] == UnparseTerm(n)[0];
    TermShape(n);
  }

  lemma {:induction false} ParseUnparseExpression(ts: seq<Token>, pos: nat, n: Node)
    requires ValidTokens(ts) && IsExpression(n)
    requires TokensAt(ts, pos, UnparseExpression(n) + [Token(Semicolon, ";")])
    ensures Yields(ParseExpression(ts, pos), n, pos + |UnparseExpression(n)|)
  {
    var u := UnparseExpression(n);
    TokensAtSplit(ts, pos, u, [Token(Semicolon, ";")]);
    if IsTerm(n) {
      ParseUnparseTerm(ts, pos, n);
      TokenAt(ts, pos + |u|, [Token(Semicolon, ";")], 0);
    } else {
      var l, r := n.children[0], n.children[1];
      TokensAtSplit(ts, pos, UnparseTerm(l) + [OperatorToken(n.value)], UnparseTerm(r));
      TokensAtSplit(ts, pos, UnparseTerm(l), [OperatorToken(n.value)]);
      ParseUnparseTerm(ts, pos, l);
      ParseUnparseTerm(ts, pos + 2, r);
      TokenAt(ts, pos + 1, [OperatorToken(n.value)], 0);
      TokenAt(ts, pos + |u|, [Token(Semicolon, ";")], 0);
      assert n == Node(n.value, [l, r]);
    }
  }

  lemma {:induction false} ParseUnparseCondition(ts: seq<Token>, pos: nat, n: Node)
    requires IsCondition(n) && TokensAt(ts, pos, UnparseCondition(n))
    ensures Yields(ParseCondition(ts, pos), n, pos + |UnparseCondition(n)|)
  {
    var l, r := n.children[0], n.children[1];
    TokensAtSplit(ts, pos, UnparseTerm(l) + [Token(EqOp, "==")], UnparseTerm(r));
    TokensAtSplit(ts, pos, UnparseTerm(l), [Token(EqOp, "==")]);
    ParseUnparseTerm(ts, pos, l);
    TokenAt(ts, pos + 1, [Token(EqOp, "==")], 0);
    ParseUnparseTerm(ts, pos + 2, r);
    assert n == Node("==", [l, r]);
  }

  /** Every statement's tokens start with `int`, `if` or an identifier, never with `}`. */
  lemma {:induction false} StatementStart(n: Node)
    requires IsStatement(n)
    ensures |UnparseStatement(n)| > 0
    ensures UnparseStatement(n)[0].kind in {IntKeyword, IfKeyword, Identifier}
  {
  }

  lemma {:induction false} ParseUnparseDeclaration(ts: seq<Token>, pos: nat, n: Node)
    requires IsDeclaration(n) && TokensAt(ts, pos, UnparseStatement(n))
    ensures Yields(ParseDeclaration(ts, pos), n, pos + |UnparseStatement(n)|)
  {
    var u := UnparseStatement(n);
    TokenAt(ts, pos, u, 0);
    TokenAt(ts, pos, u, 1);
    TokenAt(ts, pos, u, 2);
    TermShape(n.children[0]);
    assert n == Node("Declaration", [IdentifierNode(n.children[0].children[0].value)]);
  }

  /** How `ParseAssignment` composes its parts. */
  lemma {:induction false} AssignmentSteps(ts: seq<Token>, pos: nat, n: Node, k: nat)
    requires ValidTokens(ts) && |n.children| == 2
    requires At(ts, pos, Identifier) && At(ts, pos + 1, AssignOp)
    requires n == Node("Assignment", [IdentifierNode(ts[pos].value), n.children[1]])
    requires Yields(ParseExpression(ts, pos + 2), n.children[1], k)
    requires At(ts, k, Semicolon)
    ensures Yields(ParseAssignment(ts, pos), n, k + 1)
  {
  }

  /** An assignment node is rebuilt from its name and its expression. */
  lemma {:induction false} AssignmentShape(n: Node)
    requires IsAssignment(n)
    ensures n == Node("Assignment", [IdentifierNode(n.children[0].children[0].value), n.children[1]])
  {
    TermShape(n.children[0]);
  }

  lemma {:induction false} AssignmentLayout(n: Node)
    requires IsAssignment(n)
    ensures UnparseStatement(n) ==
      [Token(Identifier, n.children[0].children[0].value), Token(AssignOp, "=")]
      + (UnparseExpression(n.children[1]) + [Token(Semicolon, ";")])
  {
  }

  lemma {:induction false} LocateAssignment(ts: seq<Token>, pos: nat, name: string, e: Node)
    requires ValidTokens(ts) && IsExpression(e)
    requires TokensAt(ts, pos, [Token(Identifier, name), Token(AssignOp, "=")] + (UnparseExpression(e) + [Token(Semicolon, ";")]))
    ensures At(ts, pos, Identifier) && At(ts, pos + 1, AssignOp) && ts[pos].value == name
    ensures Yields(ParseExpression(ts, pos + 2), e, pos + 2 + |UnparseExpression(e)|)
    ensures At(ts, pos + 2 + |UnparseExpression(e)|, Semicolon)
  {
    var head := [Token(Identifier, name), Token(AssignOp, "=")];
    var semi := [Token(Semicolon, ";")];
    TokensAtSplit(ts, pos, head, UnparseExpression(e) + semi);
    TokenAt(ts, pos, head, 0);
    TokenAt(ts, pos, head, 1);
    ParseUnparseExpression(ts, pos + 2, e);
    TokensAtSplit(ts, pos + 2, UnparseExpression(e), semi);
    TokenAt(ts, pos + 2 + |UnparseExpression(e)|, semi, 0);
  }

  lemma {:induction false} ParseUnparseAssignment(ts: seq<Token>, pos: nat, n: Node)
    requires ValidTokens(ts) && IsAssignment(n) && TokensAt(ts, pos, UnparseStatement(n))
    ensures Yields(ParseAssignment(ts, pos), n, pos + |UnparseStatement(n)|)
  {
    var e := n.children[1];
    var name := n.children[0].children[0].value;
    AssignmentLayout(n);
    AssignmentShape(n);
    LocateAssignment(ts, pos, name, e);
    AssignmentSteps(ts, pos, n, pos + 2 + |UnparseExpression(e)|);
  }

  lemma {:induction false} IfLayout(n: Node)
    requires IsIf(n)
    ensures IsStatement(n)
    ensures UnparseStatement(n) ==
      [Token(IfKeyword, "if"), Token(LParen, "(")]
      + (UnparseCondition(n.children[0])
      + ([Token(RParen, ")"), Token(LBrace, "{")]
      + (UnparseStatements(n.children[1].children) + [Token(RBrace, "}")])))
  {
  }

  lemma {:induction false} LocateIf(ts: seq<Token>, pos: nat, cond: Node, inner: seq<Token>)
    requires IsCondition(cond)
    requires TokensAt(ts, pos, [Token(IfKeyword, "if"), Token(LParen, "(")]
      + (UnparseCondition(cond) + ([Token(RParen, ")"), Token(LBrace, "{")] + inner)))
    ensures At(ts, pos, IfKeyword) && At(ts, pos + 1, LParen)
    ensures Yields(ParseCondition(ts, pos + 2), cond, pos + 5)
    ensures |UnparseCondition(cond)| == 3
    ensures At(ts, pos + 5, RParen) && At(ts, pos + 6, LBrace)
    ensures TokensAt(ts, pos + 7, inner)
  {
    var head := [Token(IfKeyword, "if"), Token(LParen, "(")];
    var mid := [Token(RParen, ")"), Token(LBrace, "{")];
    TokensAtSplit(ts, pos, head, UnparseCondition(cond) + (mid + inner));
    TokenAt(ts, pos, head, 0);
    TokenAt(ts, pos, head, 1);
    TokensAtSplit(ts, pos + 2, UnparseCondition(cond), mid + inner);
    ParseUnparseCondition(ts, pos + 2, cond);
    TokensAtSplit(ts, pos + 5, mid, inner);
    TokenAt(ts, pos + 5, mid, 0);
    TokenAt(ts, pos + 5, mid, 1);
  }

  /** Where the parts of an `if` statement sit in its tokens. */
  lemma {:induction false} IfParts(ts: seq<Token>, pos: nat, n: Node)
    requires IsIf(n) && IsStatement(n) && TokensAt(ts, pos, UnparseStatement(n))
    ensures At(ts, pos, IfKeyword) && At(ts, pos + 1, LParen)
    ensures Yields(ParseCondition(ts, pos + 2), n.children[0], pos + 5)
    ensures At(ts, pos + 5, RParen) && At(ts, pos + 6, LBrace)
    ensures TokensAt(ts, pos + 7, UnparseStatements(n.children[1].children) + [Token(RBrace, "}")])
    ensures |UnparseStatement(n)| == 8 + |UnparseStatements(n.children[1].children)|
  {
    var body := n.children[1].children;
    var inner := UnparseStatements(body) + [Token(RBrace, "}")];
    IfLayout(n);
    LocateIf(ts, pos, n.children[0], inner);
  }

  /** How `ParseIfStatement` composes its parts. */
  lemma {:induction false} IfSteps(ts: seq<Token>, pos: nat, n: Node, rc: ParseResult<Node>, rb: ParseResult<seq<Node>>, b: nat)
    requires ValidTokens(ts) && pos + 7 <= |ts| && IsIf(n)
    requires At(ts, pos, IfKeyword) && At(ts, pos + 1, LParen)
    requires rc == ParseCondition(ts, pos + 2) && Yields(rc, n.children[0], pos + 5)
    requires At(ts, pos + 5, RParen) && At(ts, pos + 6, LBrace)
    requires rb == ParseBody(ts, pos + 7) && Yields(rb, n.children[1].children, b)
    ensures Yields(ParseIfStatement(ts, pos), n, b + 1)
  {
    assert Consume(ts, pos, IfKeyword) == Success(Parsed(ts[pos], pos + 1));
    assert Consume(ts, pos + 1, LParen) == Success(Parsed(ts[pos + 1], pos + 2));
    assert Consume(ts, pos + 5, RParen) == Success(Parsed(ts[pos + 5], pos + 6));
    assert Consume(ts, pos + 6, LBrace) == Success(Parsed(ts[pos + 6], pos + 7));
    assert n.children[1] == Node("Body", n.children[1].children);
    assert n == Node("If", [n.children[0], n.children[1]]);
  }

  lemma {:induction false} ParseUnparseIf(ts: seq<Token>, pos: nat, n: Node)
    requires ValidTokens(ts) && IsIf(n) && IsStatement(n) && TokensAt(ts, pos, UnparseStatement(n))
    ensures pos <= |ts|
    ensures Yields(ParseIfStatement(ts, pos), n, pos + |UnparseStatement(n)|)
    decreases n, 0
  {
    IfParts(ts, pos, n);
    var body := n.children[1].children;
    ParseUnparseBody(ts, pos + 7, body);
    IfSteps(ts, pos, n, ParseCondition(ts, pos + 2), ParseBody(ts, pos + 7), pos + 7 + |UnparseStatements(body)|);
  }

  /** Parsing the tokens of a statement gives back that statement and moves past exactly its tokens. */
  lemma {:induction false} ParseUnparseStatement(ts: seq<Token>, pos: nat, n: Node)
    requires ValidTokens(ts) && IsStatement(n) && TokensAt(ts, pos, UnparseStatement(n))
    ensures pos <= |ts|
    ensures Yields(ParseStatement(ts, pos), n, pos + |UnparseStatement(n)|)
    decreases n, 1
  {
    StatementStart(n);
    TokenAt(ts, pos, UnparseStatement(n), 0);
    var k := pos + |UnparseStatement(n)|;
    if IsDeclaration(n) {
      ParseUnparseDeclaration(ts, pos, n);
      StatementFromParts(ts, pos, n, ParseDeclaration(ts, pos), k);
    } else if IsAssignment(n) {
      ParseUnparseAssignment(ts, pos, n);
      StatementFromParts(ts, pos, n, ParseAssignment(ts, pos), k);
    } else {
      assert IsIf(n);
      ParseUnparseIf(ts, pos, n);
      StatementFromParts(ts, pos, n, ParseIfStatement(ts, pos), k);
    }
  }

  /** `ParseStatement` hands over to the parser its first token selects. */
  lemma {:induction false} StatementFromParts(ts: seq<Token>, pos: nat, n: Node, r: ParseResult<Node>, k: nat)
    requires ValidTokens(ts) && pos < |ts| && Yields(r, n, k)
    requires ts[pos].kind == IntKeyword ==> r == ParseDeclaration(ts, pos)
    requires ts[pos].kind == IfKeyword ==> r == ParseIfStatement(ts, pos)
    requires ts[pos].kind !in {IntKeyword, IfKeyword} ==> r == ParseAssignment(ts, pos)
    ensures Yields(ParseStatement(ts, pos), n, k)
  {
  }

  lemma {:induction false} StatementsLayout(ns: seq<Node>)
    requires AllStatements(ns) && |ns| > 0
    ensures IsStatement(ns[0]) && AllStatements(ns[1..])
    ensures UnparseStatements(ns) == UnparseStatement(ns[0]) + UnparseStatements(ns[1..])
  {
  }

  /** A statement's tokens followed by more: the statement's part, the rest after it, and no `}` at its start. */
  lemma {:induction false} LocateFirst(ts: seq<Token>, pos: nat, first: Node, rest: seq<Token>)
    requires IsStatement(first) && TokensAt(ts, pos, UnparseStatement(first) + rest)
    ensures TokensAt(ts, pos, UnparseStatement(first))
    ensures TokensAt(ts, pos + |UnparseStatement(first)|, rest)
    ensures pos < |ts| && !At(ts, pos, RBrace)
  {
    TokensAtSplit(ts, pos, UnparseStatement(first), rest);
    StatementStart(first);
    TokenAt(ts, pos, UnparseStatement(first), 0);
  }

  /** Where the first statement of a non-empty sequence sits, and what follows it. */
  lemma {:induction false} SplitFirst(ts: seq<Token>, pos: nat, ns: seq<Node>, tail: seq<Token>)
    requires AllStatements(ns) && |ns| > 0
    requires TokensAt(ts, pos, UnparseStatements(ns) + tail)
    ensures IsStatement(ns[0]) && AllStatements(ns[1..])
    ensures pos < |ts| && !At(ts, pos, RBrace)
    ensures TokensAt(ts, pos, UnparseStatement(ns[0]))
    ensures TokensAt(ts, pos + |UnparseStatement(ns[0])|, UnparseStatements(ns[1..]) + tail)
    ensures |UnparseStatements(ns)| == |UnparseStatement(ns[0])| + |UnparseStatements(ns[1..])|
  {
    var first := UnparseStatement(ns[0]);
    var rest := UnparseStatements(ns[1..]);
    StatementsLayout(ns);
    assert UnparseStatements(ns) + tail == first + (rest + tail);
    LocateFirst(ts, pos, ns[0], rest + tail);
  }

  /** The first statement of a body parses back, and the rest of the body follows it. */
  lemma {:induction false} BodyFirst(ts: seq<Token>, pos: nat, ns: seq<Node>, tail: seq<Token>)
    requires ValidTokens(ts) && AllStatements(ns) && |ns| > 0
    requires TokensAt(ts, pos, UnparseStatements(ns) + tail)
    ensures AllStatements(ns[1..]) && pos < |ts| && !At(ts, pos, RBrace)
    ensures Yields(ParseStatement(ts, pos), ns[0], pos + |UnparseStatement(ns[0])|)
    ensures TokensAt(ts, pos + |UnparseStatement(ns[0])|, UnparseStatements(ns[1..]) + tail)
    ensures |UnparseStatements(ns)| == |UnparseStatement(ns[0])| + |UnparseStatements(ns[1..])|
    decreases ns, 1
  {
    SplitFirst(ts, pos, ns, tail);
    ParseUnparseStatement(ts, pos, ns[0]);
  }

  /** `ParseBody` at a statement: that statement, then the body after it. */
  lemma {:induction false} BodyCompose(ts: seq<Token>, pos: nat, ns: seq<Node>, mid: nat, end: nat)
    requires ValidTokens(ts) && pos <= |ts| && !At(ts, pos, RBrace) && |ns| > 0
    requires Yields(ParseStatement(ts, pos), ns[0], mid)
    requires Yields(ParseBody(ts, mid), ns[1..], end)
    ensures Yields(ParseBody(ts, pos), ns, end)
  {
    assert [ns[0]] + ns[1..] == ns;
  }

  /** `ParseStatements` before the end: a statement, then the statements after it. */
  lemma {:induction false} StatementsCompose(ts: seq<Token>, pos: nat, ns: seq<Node>, mid: nat, end: nat)
    requires ValidTokens(ts) && pos < |ts| && |ns| > 0
    requires Yields(ParseStatement(ts, pos), ns[0], mid)
    requires Yields(ParseStatements(ts, mid), ns[1..], end)
    ensures Yields(ParseStatements(ts, pos), ns, end)
  {
    assert [ns[0]] + ns[1..] == ns;
  }

  /** Parsing the tokens of a body followed by `}` gives back the body, stopping at the brace. */
  lemma {:induction false} ParseUnparseBody(ts: seq<Token>, pos: nat, ns: seq<Node>)
    requires ValidTokens(ts) && AllStatements(ns)
    requires TokensAt(ts, pos, UnparseStatements(ns) + [Token(RBrace, "}")])
    ensures Yields(ParseBody(ts, pos), ns, pos + |UnparseStatements(ns)|)
    decreases ns, 3
  {
    if |ns| == 0 {
      assert UnparseStatements(ns) + [Token(RBrace, "}")] == [Token(RBrace, "}")];
      TokenAt(ts, pos, [Token(RBrace, "}")], 0);
    } else {
      ParseUnparseBodyStep(ts, pos, ns);
    }
  }

  /** A non-empty body: its first statement, then the rest of it. */
  lemma {:induction false} ParseUnparseBodyStep(ts: seq<Token>, pos: nat, ns: seq<Node>)
    requires ValidTokens(ts) && AllStatements(ns) && |ns| > 0
    requires TokensAt(ts, pos, UnparseStatements(ns) + [Token(RBrace, "}")])
    ensures Yields(ParseBody(ts, pos), ns, pos + |UnparseStatements(ns)|)
    decreases ns, 2
  {
    var mid := pos + |UnparseStatement(ns[0])|;
    BodyFirst(ts, pos, ns, [Token(RBrace, "}")]);
    ParseUnparseBody(ts, mid, ns[1..]);
    BodyCompose(ts, pos, ns, mid, pos + |UnparseStatements(ns)|);
  }

  lemma {:induction false} ParseUnparseStatements(ts: seq<Token>, pos: nat, ns: seq<Node>)
    requires ValidTokens(ts) && AllStatements(ns)
    requires TokensAt(ts, pos, UnparseStatements(ns)) && pos + |UnparseStatements(ns)| == |ts|
    ensures Yields(ParseStatements(ts, pos), ns, |ts|)
    decreases ns, 1
  {
    if |ns| > 0 {
      ParseUnparseStatementsStep(ts, pos, ns);
    }
  }

  /** Statements before the end of the tokens: the first one, then the rest. */
  lemma {:induction false} ParseUnparseStatementsStep(ts: seq<Token>, pos: nat, ns: seq<Node>)
    requires ValidTokens(ts) && AllStatements(ns) && |ns| > 0
    requires TokensAt(ts, pos, UnparseStatements(ns)) && pos + |UnparseStatements(ns)| == |ts|
    ensures Yields(ParseStatements(ts, pos), ns, |ts|)
    decreases ns, 0
  {
    var mid := pos + |UnparseStatement(ns[0])|;
    StatementsFirst(ts, pos, ns);
    ParseUnparseStatements(ts, mid, ns[1..]);
    StatementsCompose(ts, pos, ns, mid, |ts|);
  }

  /** `BodyFirst` with nothing after the statements. */
  lemma {:induction false} StatementsFirst(ts: seq<Token>, pos: nat, ns: seq<Node>)
    requires ValidTokens(ts) && AllStatements(ns) && |ns| > 0
    requires TokensAt(ts, pos, UnparseStatements(ns))
    ensures AllStatements(ns[1..]) && pos < |ts|
    ensures Yields(ParseStatement(ts, pos), ns[0], pos + |UnparseStatement(ns[0])|)
    ensures TokensAt(ts, pos + |UnparseStatement(ns[0])|, UnparseStatements(ns[1..]))
    ensures |UnparseStatements(ns)| == |UnparseStatement(ns[0])| + |UnparseStatements(ns[1..])|
  {
    assert UnparseStatements(ns) + [] == UnparseStatements(ns);
    BodyFirst(ts, pos, ns, []);
    assert UnparseStatements(ns[1..]) + [] == UnparseStatements(ns[1..]);
  }

  /**
   * Parsing inverts unparsing: the tokens of any well-shaped program (with
   * lexer-producible tokens) parse back to that program, one `Program` child
   * per statement.
   */
  lemma {:induction false} ParseUnparseProgram(p: Node)
    requires IsProgram(p) && ValidTokens(UnparseProgram(p))
    ensures ParseProgram(UnparseProgram(p)) == Success(p)
  {
    var ts := UnparseProgram(p);
    TokensAtSuffix(ts, 0);
    assert ts[0..] == ts;
    ParseUnparseStatements(ts, 0, p.children);
    assert p == Node("Program", p.children);
  }
}

=== FILE: pipeline.dfy ===
/**
 * The whole run as `main` performs it: the input file's lines are joined,
 * tokenized and parsed; on success the tree is dumped, followed by a blank
 * line, the "Assembly Code:" header and the generated listing; a parse error
 * instead writes one line to the error stream. Reading the file is replaced
 * by its contents as a parameter (`None` when the file cannot be opened), and
 * each output stream is modelled as the sequence of lines written to it.
 */
module Pipeline {
  import opened Results
  import opened Lexer
  import opened Ast
  import opened Parser
  import opened ParserProps
  import opened ParserInverse
  import opened Printer
  import opened CodeGen
  import opened CodeGenProps

  /**
   * The source `main` builds: `getline` removes each `'\n'` (a `'\r'` before
   * it stays in the line) and the lines are appended with nothing between them.
   */
  function JoinLines(lines: seq<string>): string {
    if |lines| == 0 then "" else lines[0] + JoinLines(lines[1..])
  }

  /**
   * Joining is concatenation: the lines of two parts of a file join to the
   * two joined texts, and a single line joins to itself.
   */
  lemma {:induction false} JoinLinesAppend(a: seq<string>, b: seq<string>)
    ensures JoinLines(a + b) == JoinLines(a) + JoinLines(b)
    ensures |a| == 1 ==> JoinLines(a) == a[0]
    decreases |a|
  {
    if |a| > 0 {
      assert (a + b)[1..] == a[1..] + b;
      JoinLinesAppend(a[1..], b);
    } else {
      assert a + b == b;
    }
  }

  /** The text written (without a line terminator) when the file cannot be opened. */
  const CannotOpen: string := "Can't open the input file."

  const Header: seq<string> := ["", "Assembly Code:"]

  /** `e.what()` for the two exceptions the parser throws. */
  function Message(e: ParseError): string {
    match e
    case UnexpectedToken => "Unexpected token"
    case ExpectedTerm => "Expected term"
  }

  /** The lines written to standard output and to standard error. */
  datatype Streams = Streams(out: seq<string>, err: seq<string>)

  /** The source `main` compiles: the empty string when the file cannot be opened. */
  function Source(file: Option<seq<string>>): string {
    match file
    case Some(lines) => JoinLines(lines)
    case None => ""
  }

  /**
   * Standard output, as lines: when the file cannot be opened the message is
   * written without a newline, so it runs into the first line written after it.
   */
  function Stdout(file: Option<seq<string>>, lines: seq<string>): seq<string> {
    if file.Some? then lines
    else if |lines| == 0 then [CannotOpen]
    else [CannotOpen + lines[0]] + lines[1..]
  }

  /** The characters a sequence of lines puts on a stream: each line followed by `'\n'`. */
  function Flat(lines: seq<string>): string {
    if |lines| == 0 then "" else lines[0] + "\n" + Flat(lines[1..])
  }

  /** What `main` writes before any line: the message when the file cannot be opened, otherwise nothing. */
  function Preamble(file: Option<seq<string>>): string {
    if file.None? then CannotOpen else ""
  }

  /**
   * On the character stream, the lines of `Stdout` are exactly the preamble
   * followed by the lines written after it: gluing the message onto the first
   * line is what writing it without a newline does.
   */
  lemma {:induction false} StdoutStream(file: Option<seq<string>>, lines: seq<string>)
    requires file.Some? || |lines| > 0
    ensures Flat(Stdout(file, lines)) == Preamble(file) + Flat(lines)
  {
    if file.None? {
      var tail := Flat(lines[1..]);
      assert Stdout(file, lines)[0] == CannotOpen + lines[0];
      assert Stdout(file, lines)[1..] == lines[1..];
      assert Flat(Stdout(file, lines)) == CannotOpen + lines[0] + "\n" + tail;
      assert Flat(lines) == lines[0] + "\n" + tail;
    } else {
      assert Preamble(file) + Flat(lines) == Flat(lines);
    }
  }

  /** What one run of the compiler writes. The label counter starts at 0 and the symbol table empty. */
  function Compile(file: Option<seq<string>>): (r: Streams)
    ensures r.err != [] <==> ParseProgram(Tokenize(Source(file))).Failure?
  {
    var tokens := Tokenize(Source(file));
    match ParseProgram(tokens)
    case Failure(e) => Streams(Stdout(file, []), ["Error: " + Message(e)])
    case Success(root) =>
      ProgramGenerable(root);
      var code := Generate(root, GenState(map[], 0)).code;
      Streams(Stdout(file, PrintAST(root, 0) + Header + Listing(code)), [])
  }

  // ---------------------------------------------------------------------------
  // Parsed trees can be printed and read back.

  lemma {:induction false} ValidTokensSplit(a: seq<Token>, b: seq<Token>)
    requires ValidTokens(a + b)
    ensures ValidTokens(a) && ValidTokens(b)
  {
    assert forall i :: 0 <= i < |a| ==> (a + b)[i] == a[i];
    assert forall i :: 0 <= i < |b| ==> (a + b)[|a| + i] == b[i];
  }

  lemma {:induction false} PairPrintable(ns: seq<Node>)
    requires |ns| == 2 && Printable(ns[0]) && Printable(ns[1])
    ensures AllPrintable(ns)
  {
    OnePrintable(ns[1..]);
  }

  lemma {:induction false} OnePrintable(ns: seq<Node>)
    requires |ns| == 1 && Printable(ns[0])
    ensures AllPrintable(ns)
  {
    assert AllPrintable(ns[1..]);
  }

  /** A term's leaf is a token text, which never starts with a space. */
  lemma {:induction false} TermPrintable(n: Node)
    requires IsTerm(n) && ValidTokens(UnparseTerm(n))
    ensures Printable(n)
  {
    assert WellFormed(UnparseTerm(n)[0]);
    var leaf := n.children[0];
    assert Unindented(leaf.value);
    assert Printable(leaf);
    OnePrintable(n.children);
  }

  lemma {:induction false} ExpressionPrintable(n: Node)
    requires IsExpression(n) && ValidTokens(UnparseExpression(n))
    ensures Printable(n)
  {
    if IsTerm(n) {
      TermPrintable(n);
    } else {
      var u := UnparseExpression(n);
      ValidTokensSplit(UnparseTerm(n.children[0]) + [OperatorToken(n.value)], UnparseTerm(n.children[1]));
      ValidTokensSplit(UnparseTerm(n.children[0]), [OperatorToken(n.value)]);
      TermPrintable(n.children[0]);
      TermPrintable(n.children[1]);
      PairPrintable(n.children);
    }
  }

  lemma {:induction false} ConditionPrintable(n: Node)
    requires IsCondition(n) && ValidTokens(UnparseCondition(n))
    ensures Printable(n)
  {
    ValidTokensSplit(UnparseTerm(n.children[0]) + [Token(EqOp, "==")], UnparseTerm(n.children[1]));
    ValidTokensSplit(UnparseTerm(n.children[0]), [Token(EqOp, "==")]);
    TermPrintable(n.children[0]);
    TermPrintable(n.children[1]);
    PairPrintable(n.children);
  }

  lemma {:induction false} StatementPrintable(n: Node)
    requires IsStatement(n) && ValidTokens(UnparseStatement(n))
    ensures Printable(n)
    decreases n, 1
  {
    var u := UnparseStatement(n);
    if IsDeclaration(n) {
      assert WellFormed(u[1]);
      var id := n.children[0];
      assert Printable(id.children[0]);
      OnePrintable(id.children);
      OnePrintable(n.children);
    } else if IsAssignment(n) {
      var head := [Token(Identifier, n.children[0].children[0].value), Token(AssignOp, "=")];
      var e := UnparseExpression(n.children[1]);
      ValidTokensSplit(head + e, [Token(Semicolon, ";")]);
      ValidTokensSplit(head, e);
      assert WellFormed(head[0]);
      var id := n.children[0];
      assert Printable(id.children[0]);
      OnePrintable(id.children);
      ExpressionPrintable(n.children[1]);
      PairPrintable(n.children);
    } else {
      IfPrintable(n);
    }
  }

  lemma {:induction false} IfPrintable(n: Node)
    requires IsIf(n) && ValidTokens(UnparseStatement(n))
    ensures Printable(n)
    decreases n, 0
  {
    var open := [Token(IfKeyword, "if"), Token(LParen, "(")];
    var c := UnparseCondition(n.children[0]);
    var mid := [Token(RParen, ")"), Token(LBrace, "{")];
    var b := UnparseStatements(n.children[1].children);
    assert UnparseStatement(n) == open + c + mid + b + [Token(RBrace, "}")];
    ValidTokensSplit(open + c + mid + b, [Token(RBrace, "}")]);
    ValidTokensSplit(open + c + mid, b);
    ValidTokensSplit(open + c, mid);
    ValidTokensSplit(open, c);
    ConditionPrintable(n.children[0]);
    AllStatementsPrintable(n.children[1].children);
    assert Printable(n.children[1]);
    PairPrintable(n.children);
  }

  lemma {:induction false} AllStatementsPrintable(ns: seq<Node>)
    requires AllStatements(ns) && ValidTokens(UnparseStatements(ns))
    ensures AllPrintable(ns)
    decreases ns, 2
  {
    if |ns| > 0 {
      ValidTokensSplit(UnparseStatement(ns[0]), UnparseStatements(ns[1..]));
      StatementPrintable(ns[0]);
      AllStatementsPrintable(ns[1..]);
    }
  }

  /** Every tree the parser returns can be dumped and read back unambiguously. */
  lemma {:induction false} ParsedPrintable(ts: seq<Token>)
    requires ValidTokens(ts) && ParseProgram(ts).Success?
    ensures Printable(ParseProgram(ts).value)
  {
    var p := ParseProgram(ts).value;
    UnparseParseProgram(ts);
    AllStatementsPrintable(p.children);
  }

  // ---------------------------------------------------------------------------
  // The run as a whole.

  /**
   * The run reports an error exactly when no well-shaped program has the
   * source's tokens; it then writes one line, `Error: ` and one of the two
   * messages, to the error stream, and neither a dump nor any code.
   */
  lemma {:induction false} CompileError(file: Option<seq<string>>)
    ensures Compile(file).err != [] <==>
      !exists p :: IsProgram(p) && UnparseProgram(p) == Tokenize(Source(file))
    ensures Compile(file).err != [] ==>
      && Compile(file).err in [["Error: Unexpected token"], ["Error: Expected term"]]
      && Compile(file).out == if file.None? then [CannotOpen] else []
  {
    var ts := Tokenize(Source(file));
    if ParseProgram(ts).Success? {
      var p := ParseProgram(ts).value;
      ParseProgramIff(ts, p);
    } else {
      ErrorLines(file);
      ErrorLine(ParseProgram(ts).error);
      NoProgram(ts);
    }
  }

  /** A rejected token sequence is the unparse of no well-shaped program. */
  lemma {:induction false} NoProgram(ts: seq<Token>)
    requires ValidTokens(ts) && ParseProgram(ts).Failure?
    ensures !exists p :: IsProgram(p) && UnparseProgram(p) == ts
  {
    forall p
      ensures !(IsProgram(p) && UnparseProgram(p) == ts)
    {
      ParseProgramIff(ts, p);
    }
  }

  /** What a failed parse writes. */
  lemma {:induction false} ErrorLines(file: Option<seq<string>>)
    requires ParseProgram(Tokenize(Source(file))).Failure?
    ensures Compile(file).err == ["Error: " + Message(ParseProgram(Tokenize(Source(file))).error)]
    ensures Compile(file).out == if file.None? then [CannotOpen] else []
  {
  }

  /** The error line is one of the two the C++ can write. */
  lemma {:induction false} ErrorLine(e: ParseError)
    ensures ["Error: " + Message(e)] in [["Error: Unexpected token"], ["Error: Expected term"]]
  {
    match e
    case UnexpectedToken =>
      assert "Error: " + Message(e) == "Error: Unexpected token";
    case ExpectedTerm =>
      assert "Error: " + Message(e) == "Error: Expected term";
  }

  /**
   * `out` is a tree dump that reads back as `root`, then the blank line and
   * header, then one line per instruction of `code`, each reading back as
   * that instruction.
   */
  predicate ReadsBack(out: seq<string>, root: Node, code: seq<Instr>) {
    var k := Size(root);
    && |out| == k + 2 + |code|
    && ReadNode(out[..k], 0) == Read(root, [])
    && out[k..k + 2] == Header
    && (forall i :: 0 <= i < |code| ==> ReadInstr(out[k + 2 + i]) == Some(code[i]))
  }

  /**
   * A successful run writes the tree dump, the header and the listing, and
   * each part reads back as what produced it. The instructions use the labels
   * 0, 1, ..., one per `if`, each exactly once as a jump and exactly once as
   * a label line, and every jump goes forward.
   */
  lemma {:induction false} CompileOutput(lines: seq<string>)
    requires ParseProgram(Tokenize(JoinLines(lines))).Success?
    ensures var root := ParseProgram(Tokenize(JoinLines(lines))).value;
      && IsProgram(root) && Generable(root)
      && var code := Generate(root, GenState(map[], 0)).code;
      && ReadsBack(Compile(Some(lines)).out, root, code)
      && LabelsOnce(code, 0, IfCount(root))
      && JumpsForward(code)
  {
    var ts := Tokenize(JoinLines(lines));
    var root := ParseProgram(ts).value;
    ProgramGenerable(root);
    ParsedPrintable(ts);
    var code := Generate(root, GenState(map[], 0)).code;
    CompileSucceeds(lines);
    var out := Compile(Some(lines)).out;
    OutputLayout(root, code, out);
    GenerateLabels(root, GenState(map[], 0));
    GenerateJumpsForward(root, GenState(map[], 0));
  }

  /** What a successful run writes to standard output. */
  lemma {:induction false} CompileSucceeds(lines: seq<string>)
    requires ParseProgram(Tokenize(JoinLines(lines))).Success?
    ensures var root := ParseProgram(Tokenize(JoinLines(lines))).value;
      && Generable(root)
      && Compile(Some(lines)).out == PrintAST(root, 0) + Header + Listing(Generate(root, GenState(map[], 0)).code)
  {
    ProgramGenerable(ParseProgram(Tokenize(JoinLines(lines))).value);
  }

  /** The three parts of a successful run's output and how each reads back. */
  lemma {:induction false} OutputLayout(root: Node, code: seq<Instr>, out: seq<string>)
    requires Printable(root)
    requires out == PrintAST(root, 0) + Header + Listing(code)
    ensures ReadsBack(out, root, code)
  {
    var dump := PrintAST(root, 0);
    PrintLineCount(root, 0);
    var k := Size(root);
    assert out[..k] == dump;
    ReadPrintTree(root);
    assert out[k..k + 2] == Header;
    forall i | 0 <= i < |code|
      ensures ReadInstr(out[k + 2 + i]) == Some(code[i])
    {
      assert out[k + 2 + i] == Text(code[i]);
      ReadText(code[i]);
    }
  }

  /** A missing file compiles the empty source: an empty program, dumped after the unterminated message. */
  lemma {:induction false} MissingFile()
    ensures Compile(None) == Streams([CannotOpen + "Program", "", "Assembly Code:"], [])
  {
    assert Tokenize("") == [];
    assert ParseStatements([], 0) == Success(Parsed([], 0));
    var root := Node("Program", []);
    assert ParseProgram([]) == Success(root);
    assert Generate(root, GenState(map[], 0)).code == [];
    assert Indent(0) + "Program" == "Program" && PrintForest([], 1) == [];
    assert PrintAST(root, 0) == ["Program"];
  }
}

=== FILE: printer.dfy ===
/**
 * The tree printer (main.cpp `printAST`): a pre-order dump, one line per
 * node, each line the node's tag indented by two spaces per level of depth.
 * The output stream is modelled as the sequence of lines written, without
 * their line terminators.
 *
 * The partner is a reader that rebuilds a tree from such lines: printing and
 * then reading gives the tree back, so the dump loses nothing (as long as no
 * tag itself starts with a space, which would be indistinguishable from
 * indentation).
 */
module Printer {
  import opened Ast

  /** `level` repetitions of two spaces. */
  function Indent(level: nat): (s: string)
    ensures |s| == 2 * level
    ensures forall i :: 0 <= i < |s| ==> s[i] == ' '
  {
    if level == 0 then "" else "  " + Indent(level - 1)
  }

  /** The lines `printAST(node, level)` writes. */
  function PrintAST(n: Node, level: nat): (lines: seq<string>)
    ensures |lines| > 0 && lines[0] == Indent(level) + n.value
    decreases n, 1
  {
    [Indent(level) + n.value] + PrintForest(n.children, level + 1)
  }

  /** The lines of the recursive calls on each child, in order. */
  function PrintForest(ns: seq<Node>, level: nat): (lines: seq<string>)
    decreases ns, 0
  {
    if |ns| == 0 then [] else PrintAST(ns[0], level) + PrintForest(ns[1..], level)
  }

  /** Number of nodes in a tree. */
  function Size(n: Node): nat
    decreases n, 1
  {
    1 + ForestSize(n.children)
  }

  function ForestSize(ns: seq<Node>): nat
    decreases ns, 0
  {
    if |ns| == 0 then 0 else Size(ns[0]) + ForestSize(ns[1..])
  }

  /** One line per node. */
  lemma {:induction false} PrintLineCount(n: Node, level: nat)
    ensures |PrintAST(n, level)| == Size(n)
    decreases n, 1
  {
    ForestLineCount(n.children, level + 1);
  }

  lemma {:induction false} ForestLineCount(ns: seq<Node>, level: nat)
    ensures |PrintForest(ns, level)| == ForestSize(ns)
    decreases ns, 0
  {
    if |ns| > 0 {
      PrintLineCount(ns[0], level);
      ForestLineCount(ns[1..], level);
    }
  }

  // ---------------------------------------------------------------------------
  // Reading the dump back.

  /** The number of leading two-space indents of a line. */
  function Depth(line: string): nat
  {
    if |line| >= 2 && line[0] == ' ' && line[1] == ' ' then 1 + Depth(line[2..]) else 0
  }

  /** The line with its leading two-space indents removed. */
  function Content(line: string): (c: string)
    ensures |c| <= |line|
  {
    if |line| >= 2 && line[0] == ' ' && line[1] == ' ' then Content(line[2..]) else line
  }

  /** A tag that cannot be mistaken for indentation. */
  predicate Unindented(s: string) {
    |s| == 0 || s[0] != ' '
  }

  /** No tag in the tree starts with a space. */
  predicate Printable(n: Node)
    decreases n, 1
  {
    Unindented(n.value) && AllPrintable(n.children)
  }

  predicate AllPrintable(ns: seq<Node>)
    decreases ns, 0
  {
    |ns| == 0 || (Printable(ns[0]) && AllPrintable(ns[1..]))
  }

  lemma {:induction false} IndentedLine(level: nat, value: string)
    requires Unindented(value)
    ensures Depth(Indent(level) + value) == level
    ensures Content(Indent(level) + value) == value
  {
    if level > 0 {
      var line := Indent(level) + value;
      assert line[2..] == Indent(level - 1) + value;
      IndentedLine(level - 1, value);
    } else {
      assert Indent(level) + value == value;
    }
  }

  /** What a reader built and the lines left after it. */
  datatype Read<+T> = Read(item: T, rest: seq<string>)

  /**
   * Reads one node whose line is the first of `lines`: its tag is that line's
   * content and its children are the nodes one level deeper that follow.
   */
  function ReadNode(lines: seq<string>, level: nat): (r: Read<Node>)
    requires |lines| > 0
    ensures |r.rest| < |lines|
    decreases |lines|, 1
  {
    var children := ReadForest(lines[1..], level + 1);
    Read(Node(Content(lines[0]), children.item), children.rest)
  }

  /** Reads consecutive nodes at depth `level`, stopping at the first line at another depth. */
  function ReadForest(lines: seq<string>, level: nat): (r: Read<seq<Node>>)
    ensures |r.rest| <= |lines|
    decreases |lines|, 2
  {
    if |lines| == 0 || Depth(lines[0]) != level then Read([], lines)
    else
      var first := ReadNode(lines, level);
      var more := ReadForest(first.rest, level);
      Read([first.item] + more.item, more.rest)
  }

  /** Either nothing follows, or what follows is no deeper than `level`. */
  predicate EndsAbove(rest: seq<string>, level: nat) {
    |rest| == 0 || Depth(rest[0]) <= level
  }

  /** The first line printed for a non-empty forest is its first tree's tag line. */
  lemma {:induction false} ForestFirstLine(ns: seq<Node>, level: nat, rest: seq<string>)
    requires |ns| > 0
    ensures |PrintForest(ns, level) + rest| > 0
    ensures (PrintForest(ns, level) + rest)[0] == Indent(level) + ns[0].value
  {
  }

  /**
   * Printing a tree and reading it back at the same level gives the tree, and
   * the reader stops exactly where the tree's lines end.
   */
  lemma {:induction false} ReadPrintNode(n: Node, level: nat, rest: seq<string>)
    requires Printable(n) && EndsAbove(rest, level)
    ensures ReadNode(PrintAST(n, level) + rest, level).item == n
    ensures ReadNode(PrintAST(n, level) + rest, level).rest == rest
    decreases n, 1
  {
    var lines := PrintAST(n, level) + rest;
    var inner := PrintForest(n.children, level + 1) + rest;
    assert lines[0] == Indent(level) + n.value;
    assert lines[1..] == inner;
    IndentedLine(level, n.value);
    ReadPrintForest(n.children, level + 1, rest);
  }

  lemma {:induction false} ReadPrintForest(ns: seq<Node>, level: nat, rest: seq<string>)
    requires AllPrintable(ns) && (|rest| == 0 || Depth(rest[0]) < level)
    ensures ReadForest(PrintForest(ns, level) + rest, level).item == ns
    ensures ReadForest(PrintForest(ns, level) + rest, level).rest == rest
    decreases ns, 0
  {
    if |ns| == 0 {
      assert PrintForest(ns, level) + rest == rest;
    } else {
      var tail := PrintForest(ns[1..], level) + rest;
      assert PrintForest(ns, level) + rest == PrintAST(ns[0], level) + tail;
      IndentedLine(level, ns[0].value);
      TailEndsAbove(ns[1..], level, rest);
      ReadPrintNode(ns[0], level, tail);
      ReadPrintForest(ns[1..], level, rest);
      assert [ns[0]] + ns[1..] == ns;
    }
  }

  /** What follows a tree's lines in a forest starts at the forest's level or above. */
  lemma {:induction false} TailEndsAbove(ns: seq<Node>, level: nat, rest: seq<string>)
    requires AllPrintable(ns) && (|rest| == 0 || Depth(rest[0]) < level)
    ensures EndsAbove(PrintForest(ns, level) + rest, level)
  {
    if |ns| > 0 {
      ForestFirstLine(ns, level, rest);
      IndentedLine(level, ns[0].value);
    } else {
      assert PrintForest(ns, level) + rest == rest;
    }
  }

  /** The dump of a whole tree (level 0, as `main` calls it) reads back as that tree. */
  lemma {:induction false} ReadPrintTree(n: Node)
    requires Printable(n)
    ensures ReadNode(PrintAST(n, 0), 0).item == n
    ensures ReadNode(PrintAST(n, 0), 0).rest == []
  {
    ReadPrintNode(n, 0, []);
    assert PrintAST(n, 0) + [] == PrintAST(n, 0);
  }
}

=== FILE: results.dfy ===
/** Failure-compatible result types used in place of the C++ exceptions. */
module Results {

  datatype Option<+T> = None | Some(value: T)

  /** Either a value or an error; usable with `:-`. */
  datatype Result<+T, +E> = Success(value: T) | Failure(error: E) {

    predicate IsFailure() {
      Failure?
    }

    function PropagateFailure<U>(): Result<U, E>
      requires Failure?
    {
      Failure(error)
    }

    function Extract(): T
      requires Success?
    {
      value
    }
  }
}
